=== FILE: README.md ===
# Lab examples core: behaviour tree, weapon reload, sprite animation

A Dafny model of three small cores from a set of Unity lab examples, with
proofs of what they promise.

- **Behaviour tree (Lab11).** The node kinds and their `Execute`:
  - the base node, which fails;
  - Sequencer, which runs at most one child per call;
  - Selector, which tries children within one call until one does not fail;
  - Repeater, RepeatUntilFailure and Fail.

  The model also covers the blackboard's typed `TryGet`, and the tree driver
  (`Awake`, `Start`, `Run`, `Stop`, `Update` and the `RunBehaviour`
  coroutine) as an explicit per-tick step.
- **Abstract weapon (Lab6).** The trigger setter with its reload interruption,
  the ammo predicates, `UseAmmo`, `StartReload`, `ReloadMag`,
  `TryInterruptReload`, and the timed reload state machine in `Update`.
- **Sprite animator.** The `mod` helper (never negative for a positive modulus), the pose shown at a
  time, and the mirror flags that can alternate on every other loop.

Modules:
- `Option`: an option type.
- `BTNodes`: node kinds, `Execute`, shape and cursor invariants.
- `BTNodeProperties`: one call of each kind.
- `BTNodeTraces`: several calls, checked against a host that logs which leaves ran.
- `Blackboard`: the typed map.
- `BehaviourTree` and `BehaviourTreeProperties`: the driver.
- `Weapon`.
- `SpriteAnimation`.

How the model represents the source:
- **Nodes are immutable values.** `Execute` returns the result, the node
  afterwards (only composite cursors change) and the host state.
- **Leaves are an oracle.** Leaf behaviours such as the random walk run
  through `(id, state) -> (result, state)`. Occurrences of the one walk object
  at several positions share an id, so they share its state.
- **Coroutine passes are counted.** A pass is one run of `RunBehaviour`. The
  driver never stores the handle of a pass it starts, so nothing can cancel
  one.
- **Tick order.** A tick runs the driver's `Update` first. Then every pass
  that was suspended before the tick resumes once.

Four behaviours of the code are easy to miss, and the model keeps them:
- **Stop and Run cancel nothing.** The `coroutine` field
  (Assets/Lab11/BehaviourTree.cs:16) is never assigned, so the
  `StopCoroutine` guards in `Run` and `Stop` never fire and no pass is ever
  cancelled. After `Stop` then `Run`, when the root reports Running on
  `Run`'s execution, two passes are live (`StopThenRunLeavesTwoPasses`).
  Every tick resumes each live pass, so the root runs once per pass, even
  after one of them has ended (`ResumeIsTicks`, `TickResumesEveryPass`,
  `StopThenRunTicksTwice`); a pass that `Stop` left alone still runs the
  root (`StopDoesNotCancel`).
- **Run keeps cursors.** `Run` is documented as starting or restarting the
  behaviour (Assets/Lab11/BehaviourTree.cs:109), but after an interrupted
  pass it resets nothing: composite cursors keep their values and the new
  pass resumes where the old one stopped.
- **TryGet can throw.** `TryGet` asks the stored object for its type with
  `o.GetType()` (Assets/Lab11/BehaviourTree.cs:35). On a key whose stored
  value is null that throws a null-reference exception; the model returns
  `NullReference` for that case.
- **Reverse playback mirrors late.** With a negative animation rate
  (Assets/Packages/2DUtils/SpriteAnimator.cs:107) frames go negative, and the
  loop count truncates toward zero, so the loop around frame 0 is almost twice
  as long as the others (`MirrorAroundZero`).

## Model

| member | source | states |
|---|---|---|
| BTNodes.Execute | Assets/Lab11/BTNodes_StartingPoint.cs:72-94 | Composites keep their kind. After a call a composite's cursor is a child index or 0. A composite that reports Success or Failure has its cursor at 0. Default and Fail fail and change nothing. Repeater always reports Running. RepeatUntilFailure never reports Success. |
| BTNodes.SelectorLoop | Assets/Lab11/BTNodes_Created.cs:44-64 | The selector loop keeps the child count. Running leaves the cursor on a child at or after the start. Any other result resets the cursor. With no child left it fails at once and changes nothing. |
| BTNodes.ExecuteKeepsShape | Assets/Lab11/BTNodes_StartingPoint.cs:29-56 | Execute changes nothing but cursors: child lists and decorator children are fixed at construction. |
| BTNodes.SelectorLoopKeepsShape | Assets/Lab11/BTNodes_Created.cs:44-64 | The selector loop changes only cursors. It leaves every child before its starting point untouched. |
| BTNodes.ExecuteKeepsValid | Assets/Lab11/BTNodes_StartingPoint.cs:72-94 | If every composite cursor in a tree is in range, it stays in range after a call. |
| BTNodes.SelectorLoopKeepsValid | Assets/Lab11/BTNodes_Created.cs:44-64 | The selector loop keeps every child's cursors in range. |
| BTNodeProperties.DefaultFails | Assets/Lab11/BTNodes_StartingPoint.cs:24 | The base Execute fails and changes no state. |
| BTNodeProperties.FailTouchesNothing | Assets/Lab11/BTNodes_Created.cs:75 | The Fail node fails, runs nothing and changes no state. |
| BTNodeProperties.SequencerStep | Assets/Lab11/BTNodes_StartingPoint.cs:73-89 | A Sequencer runs exactly the child at its cursor. Running keeps the cursor. Failure resets it and fails. Success advances it and reports Running, except after the last child, where it resets and succeeds. |
| BTNodeProperties.SequencerFinished | Assets/Lab11/BTNodes_StartingPoint.cs:72-94 | With no children, or a cursor past the end, a Sequencer succeeds at once, resets and runs nothing. |
| BTNodeProperties.RepeaterStep | Assets/Lab11/BTNodes_StartingPoint.cs:110-113 | A Repeater runs its child exactly once and reports Running whatever the child did. |
| BTNodeProperties.RepeatUntilFailureStep | Assets/Lab11/BTNodes_Created.cs:17-22 | RepeatUntilFailure runs its child once. It fails exactly when the child failed; otherwise it reports Running. |
| BTNodeProperties.SelectorAttempt | Assets/Lab11/BTNodes_Created.cs:47-58 | Child Running: the Selector stops with the cursor on that child. Child Success: it stops with the cursor reset. Child Failure: the next child runs in the same call, on the state the failed child left. |
| BTNodeProperties.SelectorFinished | Assets/Lab11/BTNodes_Created.cs:47-63 | With no child left to try, a Selector fails at once and resets its cursor. |
| BTNodeProperties.SelectorLoopFailStep | Assets/Lab11/BTNodes_Created.cs:57-58 | A failed child hands the loop to the next child on the state it left. |
| BTNodeProperties.SelectorLoopStopsAt | Assets/Lab11/BTNodes_Created.cs:51-55 | A child that does not fail ends the loop, whatever children follow. |
| BTNodeProperties.SelectorLoopIgnoresTail | Assets/Lab11/BTNodes_Created.cs:44-64 | Children after the one that stops the selector are never run. Appending children changes neither the result, the state nor the cursor. |
| BTNodeTraces.SelectorOverLeaves | Assets/Lab11/BTNodes_Created.cs:44-64 | Checked against an independent "first non-failing leaf" definition: over leaves, the selector runs exactly the leaves up to and including the first that does not fail (or all of them), and returns that leaf's result or Failure. The cursor stays only on a Running leaf. |
| BTNodeTraces.SelectorShortCircuitExample | Assets/Lab11/BTNodes_Created.cs:44-64 | With children Failure, Failure, Success and a fourth leaf, one call runs the first three leaves, succeeds with the cursor reset, and never runs the fourth. |
| BTNodeTraces.SelectorExhaustion | Assets/Lab11/BTNodes_Created.cs:44-64 | When every leaf from the cursor on fails, one call runs all of them in order and fails with the cursor reset. |
| BTNodeTraces.SequencerProgress | Assets/Lab11/BTNodes_StartingPoint.cs:72-94 | With leaves that succeed, a Sequencer runs one leaf per call, in order. It reports Running until the call that runs the last leaf, which returns Success and resets the cursor. |
| BTNodeTraces.SequencerWaitsForChild | Assets/Lab11/BTNodes_StartingPoint.cs:72-94 | For any host: if the child at the cursor reports Running r times and then Success, the Sequencer reports Running on those r + 1 calls (Success on the last if the child is the last one). It keeps its cursor while the child runs, then moves to the next child or resets. |
| BTNodeTraces.RepeatUntilFailureKeepsRunning | Assets/Lab11/BTNodes_Created.cs:17-22 | Over a leaf that never fails, RepeatUntilFailure reports Running on every call and runs the leaf once per call. |
| BTNodeTraces.UntilFailureTicks | Assets/Lab11/BTNodes_Created.cs:17-22 | For any child and host, k calls of RepeatUntilFailure are k calls of the child: each Failure is passed up and every other result becomes Running. |
| BTNodeTraces.SelectorWaitsForChild | Assets/Lab11/BTNodes_Created.cs:47-58 | For any host: if the child at the cursor reports Running r times and then Success, the Selector reports the same r + 1 results, keeps its cursor while the child runs, and resets it on the Success. |
| Blackboard.Set | Assets/Lab11/BehaviourTree.cs:70 | A store adds the key, holds the new value under it, and leaves every other key's value unchanged. |
| Blackboard.TryGet | Assets/Lab11/BehaviourTree.cs:29-46 | Missing key: false and the type's default. Stored null: a null-reference exception. Stored value assignable to the type: true and that value. Otherwise: false and the default. The board is not changed. |
| Blackboard.SetThenTryGet | Assets/Lab11/BehaviourTree.cs:29-46 | A value just stored reads back at its own type and as an object. Reads of other keys are unaffected. |
| Blackboard.TypeSafetyExamples | Assets/Lab11/BehaviourTree.cs:29-46 | After storing int 5: reading it as a string gives (null, false), as an int gives (5, true), and a missing key as an int gives (0, false). |
| BehaviourTree.Awake | Assets/Lab11/BehaviourTree.cs:67-94 | The blackboard holds only WorldBounds = Rect(-5, -5, 10, 10), readable as a Rect. The driver is idle with no pass and valid cursors. The root is the selector iff useSelector. It is repeat-until-failure iff only that flag is set. Otherwise it is the repeater. |
| BehaviourTree.BeginPass | Assets/Lab11/BehaviourTree.cs:130-139 | A pass executes the root at once. On Running the pass stays suspended. Otherwise it clears running and ends. |
| BehaviourTree.Run | Assets/Lab11/BehaviourTree.cs:110-119 | When already running: a no-op. Otherwise: one execution of the root, with running set exactly when the root reports Running, plus one suspended pass in that case. |
| BehaviourTree.Start | Assets/Lab11/BehaviourTree.cs:97-99 | Start is Run. When running it is a no-op. Otherwise it executes the root once, sets running exactly when the root reports Running, and leaves one suspended pass in that case. |
| BehaviourTree.Stop | Assets/Lab11/BehaviourTree.cs:122-126 | Clears running and repeat. The suspended passes, the root and the environment are unchanged. |
| BehaviourTree.Update | Assets/Lab11/BehaviourTree.cs:102-107 | A new pass starts exactly when not running and repeat is set. Otherwise nothing changes. |
| BehaviourTree.Resume | Assets/Lab11/BehaviourTree.cs:133-138 | Resuming k passes keeps repeat. It ends at most k passes and never sets running. An ended pass leaves running clear. Only cursors change, and valid cursors stay valid. |
| BehaviourTree.Tick | Assets/Lab11/BehaviourTree.cs:102-139 | A host tick keeps repeat, changes only cursors in the tree, and keeps valid cursors valid. |
| BehaviourTreeProperties.AwakeIsCoherent | Assets/Lab11/BehaviourTree.cs:67-94 | After initialisation no pass is live and running is clear. |
| BehaviourTreeProperties.RepeatUntilFailureTreeWalksTwice | Assets/Lab11/BehaviourTree.cs:61 | The repeat-until-failure tree walks twice, then stops: whatever number of Running calls each walk takes, the tree reports Running until the call after the second arrival, which fails and ends the pass, leaving the tree as it started. |
| BehaviourTreeProperties.SelectorTreeWalksOnce | Assets/Lab11/BehaviourTree.cs:63 | The selector tree walks once, then stops: it passes up the walk's Running calls, succeeds on its arrival without trying another child, and is left as it started. |
| BehaviourTreeProperties.RepeatUntilFailureTreeLog | Assets/Lab11/BehaviourTree.cs:85 | With a walk that arrives at once, three calls of the (walk, walk, fail) tree report Running, Running, Failure and run the walk exactly twice. |
| BehaviourTreeProperties.SelectorTreeLog | Assets/Lab11/BehaviourTree.cs:87 | With a walk that arrives at once, one call of the (walk, fail, walk, walk, fail) selector succeeds after running the walk exactly once. |
| BehaviourTreeProperties.RunKeepsCoherent | Assets/Lab11/BehaviourTree.cs:110-119 | Run keeps "at most one pass, and running exactly when one is live". |
| BehaviourTreeProperties.RunningTick | Assets/Lab11/BehaviourTree.cs:130-139 | A tick of a running driver executes the root once. On Running the pass stays. Otherwise the pass ends and running is cleared. |
| BehaviourTreeProperties.IdleTick | Assets/Lab11/BehaviourTree.cs:102-107 | A tick of an idle driver starts a pass exactly when repeat is set. Without repeat nothing changes. |
| BehaviourTreeProperties.TickKeepsCoherent | Assets/Lab11/BehaviourTree.cs:102-139 | Ticks keep the one-pass coherence. |
| BehaviourTreeProperties.AutoRepeat | Assets/Lab11/BehaviourTree.cs:102-107 | With repeat set, the tick after the root finishes starts a new pass that executes the root again. |
| BehaviourTreeProperties.StopDoesNotCancel | Assets/Lab11/BehaviourTree.cs:122-126 | After Stop, a live pass still executes the root on the next tick, with running and repeat clear. |
| BehaviourTreeProperties.StopThenRunLeavesTwoPasses | Assets/Lab11/BehaviourTree.cs:110-126 | Stop then Run during a running pass leaves two live passes and running set. |
| BehaviourTreeProperties.ResumeWhileRunning | Assets/Lab11/BehaviourTree.cs:133-136 | While the root keeps reporting Running, resuming k passes is k successive root executions. No pass ends. |
| BehaviourTreeProperties.ResumeIsTicks | Assets/Lab11/BehaviourTree.cs:133-138 | Resuming k passes executes the root exactly k times in a row, whatever the results. The root and host state are those of k successive executions. One pass ends per non-Running result, and running survives only if none ended. |
| BehaviourTreeProperties.TickResumesEveryPass | Assets/Lab11/BehaviourTree.cs:102-106 | A tick of a running driver leaves Update idle and resumes every live pass, so the root executes once per live pass, even after an earlier pass in the same tick has ended. |
| BehaviourTreeProperties.StopThenRunTicksTwice | Assets/Lab11/BehaviourTree.cs:110-126 | After Stop then Run, with Run's execution reporting Running, the next tick executes the root twice: once for the pass Stop did not cancel and once for the pass Run started. |
| Weapon.Configured | Assets/Lab6/V2Scripts/AWeapon.cs:36-61 | The default weapon is not reloading, has the trigger released, and draws directly from the box (no magazine). |
| Weapon.ConfiguredIsSound | Assets/Lab6/V2Scripts/AWeapon.cs:36-61 | The default weapon keeps its reload flags consistent and its counts in range. It can fire exactly when the box holds a shot. A frame leaves it unchanged, and a reload cannot start. |
| Weapon.AmmoInBox | Assets/Lab6/V2Scripts/AWeapon.cs:64 | The box's count for the weapon's ammo type, or 0 when no box is linked. |
| Weapon.HasAmmoInMag | Assets/Lab6/V2Scripts/AWeapon.cs:67 | Always true without a magazine. With one: true iff the magazine holds at least one shot's ammo. |
| Weapon.HasAmmoToFire | Assets/Lab6/V2Scripts/AWeapon.cs:81-86 | With a magazine: true iff it holds a shot. Without one: true iff the box holds a shot. |
| Weapon.UseAmmo | Assets/Lab6/V2Scripts/AWeapon.cs:120-130 | With a magazine: takes one shot from it only if it holds one, otherwise no change. Without one: takes it from a linked box unchecked. Nothing else changes. |
| Weapon.StartReload | Assets/Lab6/V2Scripts/AWeapon.cs:133-139 | A reload starts (from its start delay) exactly when not reloading, the magazine is below its size and the box holds ammo. Otherwise no change. |
| Weapon.ReloadMag | Assets/Lab6/V2Scripts/AWeapon.cs:143-160 | Ammo only moves from box to magazine: the total is conserved. It is a no-op without a magazine, with a full magazine or without a box. A full reload ends with the magazine full or the box empty, never overfilled. A reload of an explicit positive amount adds that amount, or what the box holds if that is less, with no cap at the magazine size. |
| Weapon.TryInterruptReload | Assets/Lab6/V2Scripts/AWeapon.cs:164-174 | Succeeds without change when not reloading. While reloading, succeeds (clearing both flags) iff interruption is allowed or the start delay has passed; otherwise fails without change. |
| Weapon.SetTrigger | Assets/Lab6/V2Scripts/AWeapon.cs:20-28 | Pressing during a reload that cannot be interrupted is ignored. Otherwise the trigger takes the value, and justTrigger is set iff a released trigger was pressed. A successful press first ends the reload. |
| Weapon.ReloadStartPhase | Assets/Lab6/V2Scripts/AWeapon.cs:95-105 | Past the start delay, the delay is consumed and the magazine reloaded. The reload ticks on iff reloadPerTick > 0. Before the delay only time accumulates. Ammo is conserved. |
| Weapon.ReloadTickPhase | Assets/Lab6/V2Scripts/AWeapon.cs:106-115 | Past the tick delay, the magazine is refilled until it is full or the box is empty. The reload ends iff the box is empty or the magazine full. Before the delay only time accumulates. Ammo is conserved. |
| Weapon.Update | Assets/Lab6/V2Scripts/AWeapon.cs:90-117 | justTrigger is cleared. Without a reload nothing else changes. A reload in its start delay advances by the start phase, and a ticking reload by the tick phase. Total ammo is conserved, a reload never starts, the reload flags stay consistent and counts stay in range. |
| Weapon.UpdateStartsReloadStep | Assets/Lab6/V2Scripts/AWeapon.cs:93-105 | A frame that carries a reload past its start delay leaves the magazine full or the box empty. The reload continues iff reloadPerTick > 0. Before the delay only time accumulates. |
| Weapon.UpdateTickEndsReload | Assets/Lab6/V2Scripts/AWeapon.cs:106-115 | A frame that carries a ticking reload past its tick delay leaves the magazine full or the box empty, and ends the reload. |
| Weapon.UseAmmoWhenReady | Assets/Lab6/V2Scripts/AWeapon.cs:120-130 | Firing when there is ammo to fire removes exactly one shot's ammo and keeps counts in range. |
| Weapon.ReloadFlagsInvariant | Assets/Lab6/V2Scripts/AWeapon.cs:93-116 | Every operation keeps "ticking only while reloading". |
| Weapon.StartStepFillsMagazine | Assets/Lab6/V2Scripts/AWeapon.cs:96-113 | The first reload step fills the magazine as far as the box allows, whatever reloadPerTick is. A following tick step therefore ends the reload. |
| SpriteAnimation.Quot | Assets/Packages/2DUtils/SpriteAnimator.cs:16 | C#'s `/`, truncating toward zero: abs(q) is the whole number of times abs(m) fits in abs(x), and a non-zero q is negative exactly when x and m have opposite signs. |
| SpriteAnimation.Rem | Assets/Packages/2DUtils/SpriteAnimator.cs:16 | C#'s `%`: x = m * Quot(x, m) + r, with abs(r) < abs(m) and r taking x's sign. |
| SpriteAnimation.Mod | Assets/Packages/2DUtils/SpriteAnimator.cs:15-18 | For m > 0 the result lies in [0, m) and equals the Euclidean remainder. For x >= 0 it is C#'s `%`, for either sign of m. It always differs from x by a multiple of m. |
| SpriteAnimation.NoAnimation | Assets/Packages/2DUtils/SpriteAnimator.cs:117-127 | Without an animation: no poses, and every mirror flag is false. |
| SpriteAnimation.GetPose | Assets/Packages/2DUtils/SpriteAnimator.cs:186-194 | No pose iff there are no poses. Otherwise the pose at the frame's Euclidean remainder by the pose count, a valid index even for negative frames. |
| SpriteAnimation.PoseCycles | Assets/Packages/2DUtils/SpriteAnimator.cs:186-194 | Poses repeat with the animation's length. In the first loop, frame i shows pose i. |
| SpriteAnimation.Mirror | Assets/Packages/2DUtils/SpriteAnimator.cs:199-211 | Without animated mirroring: the static flag. With it: set on odd loop counts. With no poses: unknown. |
| SpriteAnimation.GetMirrorX | Assets/Packages/2DUtils/SpriteAnimator.cs:199-211 | Without animated X mirroring: the static mirrorX. With it: set on odd loop counts, unknown when there are no poses. |
| SpriteAnimation.GetMirrorY | Assets/Packages/2DUtils/SpriteAnimator.cs:216-228 | Without animated Y mirroring: the static mirrorY. With it: set on odd loop counts, unknown when there are no poses. |
| SpriteAnimation.MirrorAlternates | Assets/Packages/2DUtils/SpriteAnimator.cs:199-211 | With animated mirroring, for frames >= 0: the first loop is not mirrored and the second is, and the flag flips from each loop to the next. |
| SpriteAnimation.MirrorAroundZero | Assets/Packages/2DUtils/SpriteAnimator.cs:199-206 | With 4 poses, frames -3 to 3 are all unmirrored and mirroring sets in at -4 and at 4: the loop around frame 0 is 7 frames long. |

## Left out

- Shared composites: the `Node` datatype is a tree, so a composite placed at two positions of a tree, or a cycle, cannot be expressed. The source's `Awake` shares only the `walk` leaf, whose behaviour the shared leaf id captures, and the stateless `fail` node (Assets/Lab11/BehaviourTree.cs:85, :87), so no tree the source builds is lost.
- The random-walk leaf (Assets/Lab11/BTNodes_StartingPoint.cs:116-161) is not modelled in detail. Its movement, destination choice, `Random`, `Time.deltaTime` and transform work are vector and float maths on engine objects. Leaves are a host-supplied oracle over a state the model threads through. `Awake`'s call to `PickNextDestination` is part of that state.
- Unity coroutines (`StartCoroutine`/`yield`) and the MonoBehaviour lifecycle become a count of suspended passes and an explicit `Tick`. The order within a frame, Update first and then suspended coroutines, is an assumption about the engine.
- The `tree` back-references of nodes are not modelled, since the model never uses them. Neither is the constructor wiring: node kinds are built directly as values.
- Blackboard values are a closed set: null, int, string and Rect. Assignability is exact type or `object`; the wider .NET type hierarchy is not modelled.
- Weapon.ReloadMag: ammo counts are whole numbers, not the source's floats. Float rounding in the ammo sums is not modelled.
- Weapon.Update: times are exact reals, not single-precision floats. `Time.deltaTime` is a parameter.
- Weapon.UseAmmo: the ammo box is one count for the weapon's ammo type. A missing `ammoType` key, which would throw, is not modelled. Neither is another weapon sharing the box.
- The weapon's `kick`, `didFire`, `percentReady`, `isReady` and `owner` are abstract or presentation members with no logic here.
- SpriteAnimation.GetPose: the time is abstracted to a whole frame number, the time times the animation speed truncated toward zero. Float products, and the int conversion of out-of-range floats, are not modelled. `animSpeed`, its no-animation default of 1 and the `loop` and `percent` getters are left out.
- SpriteAnimation.Mirror: with animated mirroring and no poses the source divides a float by zero and converts it to int. C# leaves that value unspecified, so the model answers None.
- SpriteAnimation.Mod: it requires a non-zero modulus, so the DivideByZeroException that `x % 0` throws is not modelled; the pose and mirror lookups only call it with a positive pose count or 2. Integers are unbounded: the 32-bit overflow of `r + m` for negative moduli is not modelled, and neither is the `int.MinValue % -1` exception.
- BTNodeTraces.SequencerProgress: it runs the whole child list only for leaves that succeed on their first call. Children that report Running before succeeding are covered one child at a time by `SequencerWaitsForChild`, not across the whole list.
- The sprite animator's cue playback, `Play`, `Update`, renderer writes and inspector drawers are rendering and audio side effects, so they are left out.

=== FILE: behaviour_tree.dfy ===
/** The tree driver of Lab11: it owns the root node and the blackboard, and
    runs passes over the root.

    A pass (the driver's coroutine) executes the root once when it starts and
    then once more on each later host tick while the root reports Running; on
    the first Success or Failure it clears `running` and ends. Passes are
    counted, not named: the driver never keeps a handle on the pass it starts,
    so neither Run nor Stop can cancel one, and after Stop then Run two passes
    can be live at once. Each host tick first runs the driver's own Update and
    then resumes every pass that was already suspended before the tick began;
    a pass started during the tick is first resumed on the next tick. */
module BehaviourTree {
  import opened BTNodes
  import opened Blackboard

  /** What the leaves act on: the blackboard and the rest of the host world
      (transforms, randomness, the leaves' private state). */
  datatype Env<W> = Env(board: Board, world: W)

  /** The driver: its root, its two flags, what the leaves act on, and the
      number of passes currently suspended waiting for the next tick. */
  datatype Tree<W> = Tree(root: Node, running: bool, repeat: bool, env: Env<W>, passes: nat)

  /** The id under which the one random-walk node runs. The same walk node is
      placed at several positions of the trees built below. */
  const WalkId: nat := 0

  const WorldBoundsKey: string := "WorldBounds"

  /** The world bounds the driver stores on initialisation. */
  const WorldBounds: Rect := Rect(-5.0, -5.0, 10.0, 10.0)

  /** The demo tree: a repeater over a sequencer of one walk. */
  function RepeaterRoot(): Node
  {
    Repeater(Sequencer([Leaf(WalkId)], 0))
  }

  /** Repeat until failure over the sequence walk, walk, fail. */
  function RepeatUntilFailureRoot(): Node
  {
    RepeatUntilFailure(Sequencer([Leaf(WalkId), Leaf(WalkId), Fail], 0))
  }

  /** The selector over walk, fail, walk, walk, fail. */
  function SelectorRoot(): Node
  {
    Selector([Leaf(WalkId), Fail, Leaf(WalkId), Leaf(WalkId), Fail], 0)
  }

  /** Initialisation: a blackboard holding only the world bounds, not running,
      no pass started yet, and the root chosen by the two flags; the selector
      flag takes precedence over the repeat-until-failure flag, and the
      repeater is the root when neither is set. `repeat` keeps its configured
      value. */
  function Awake<W>(useRepeatUntilFailure: bool, useSelector: bool, repeat: bool, world: W): (t: Tree<W>)
    ensures t.env.board.Keys == {WorldBoundsKey}
    ensures TryGet(t.env.board, WorldBoundsKey, RectType) == Read(true, RectValue(WorldBounds))
    ensures !t.running && t.passes == 0 && t.repeat == repeat
    ensures Valid(t.root)
    ensures t.root == SelectorRoot() <==> useSelector
    ensures t.root == RepeatUntilFailureRoot() <==> !useSelector && useRepeatUntilFailure
    ensures t.root == RepeaterRoot() <==> !useSelector && !useRepeatUntilFailure
  {
    var board := Set(map[], WorldBoundsKey, RectValue(WorldBounds));
    var root :=
      if useSelector then SelectorRoot()
      else if useRepeatUntilFailure then RepeatUntilFailureRoot()
      else RepeaterRoot();
    Tree(root, false, repeat, Env(board, world), 0)
  }

  /** Start a pass: execute the root once at once; if it reports Running the
      pass stays suspended until the next tick, otherwise it clears
      `running` and ends. */
  function BeginPass<W>(t: Tree<W>, leaf: (nat, Env<W>) -> (Result, Env<W>)): (t': Tree<W>)
    ensures var o := Execute(t.root, t.env, leaf);
            && t'.root == o.node && t'.env == o.state && t'.repeat == t.repeat
            && (o.result == Running ==> t'.running == t.running && t'.passes == t.passes + 1)
            && (o.result != Running ==> !t'.running && t'.passes == t.passes)
  {
    var o := Execute(t.root, t.env, leaf);
    if o.result == Running then t.(root := o.node, env := o.state, passes := t.passes + 1)
    else t.(root := o.node, env := o.state, running := false)
  }

  /** Run: when not running, set `running` and start a pass; when already
      running, nothing happens. */
  function Run<W>(t: Tree<W>, leaf: (nat, Env<W>) -> (Result, Env<W>)): (t': Tree<W>)
    ensures t.running ==> t' == t
    ensures !t.running ==>
              var o := Execute(t.root, t.env, leaf);
              && t'.root == o.node && t'.env == o.state && t'.repeat == t.repeat
              && (t'.running <==> o.result == Running)
              && t'.passes == t.passes + (if o.result == Running then 1 else 0)
  {
    if t.running then t else BeginPass(t.(running := true), leaf)
  }

  /** The first frame's Start, which runs the tree. */
  function Start<W>(t: Tree<W>, leaf: (nat, Env<W>) -> (Result, Env<W>)): (t': Tree<W>)
    ensures t.running ==> t' == t
    ensures !t.running ==>
              var o := Execute(t.root, t.env, leaf);
              && t'.root == o.node && t'.env == o.state && t'.repeat == t.repeat
              && (t'.running <==> o.result == Running)
              && t'.passes == t.passes + (if o.result == Running then 1 else 0)
  {
    Run(t, leaf)
  }

  /** Stop: clear both flags. Suspended passes are not cancelled. */
  function Stop<W>(t: Tree<W>): (t': Tree<W>)
    ensures !t'.running && !t'.repeat
    ensures t'.passes == t.passes && t'.root == t.root && t'.env == t.env
  {
    t.(running := false, repeat := false)
  }

  /** The driver's per-frame Update: start a new pass exactly when the tree is
      not running and `repeat` is set; otherwise change nothing. */
  function Update<W>(t: Tree<W>, leaf: (nat, Env<W>) -> (Result, Env<W>)): (t': Tree<W>)
    ensures t.running || !t.repeat ==> t' == t
    ensures !t.running && t.repeat ==>
              var o := Execute(t.root, t.env, leaf);
              && t'.root == o.node && t'.env == o.state && t'.repeat
              && (t'.running <==> o.result == Running)
              && t'.passes == t.passes + (if o.result == Running then 1 else 0)
    ensures t'.passes >= t.passes
  {
    if !t.running && t.repeat then BeginPass(t.(running := true), leaf) else t
  }

  /** Resume `k` of the suspended passes, one after another: each executes
      the root once; one that gets Success or Failure clears `running` and
      ends. Only cursors change in the root, and valid cursors stay valid. */
  function Resume<W>(t: Tree<W>, k: nat, leaf: (nat, Env<W>) -> (Result, Env<W>)): (t': Tree<W>)
    requires k <= t.passes
    ensures t'.repeat == t.repeat
    ensures t.passes - k <= t'.passes <= t.passes
    ensures t'.running ==> t.running
    ensures t'.passes < t.passes ==> !t'.running
    ensures Erase(t'.root) == Erase(t.root)
    ensures Valid(t.root) ==> Valid(t'.root)
    decreases k
  {
    if k == 0 then t
    else
      var o := Execute(t.root, t.env, leaf);
      ExecuteKeepsShape(t.root, t.env, leaf);
      ExecuteKeepsValid(t.root, t.env, leaf);
      var next :=
        if o.result == Running then t.(root := o.node, env := o.state)
        else t.(root := o.node, env := o.state, running := false, passes := t.passes - 1);
      Resume(next, k - 1, leaf)
  }

  /** One host tick: the driver's Update, then every pass that was suspended
      before the tick resumes once. */
  function Tick<W>(t: Tree<W>, leaf: (nat, Env<W>) -> (Result, Env<W>)): (t': Tree<W>)
    ensures t'.repeat == t.repeat
    ensures Erase(t'.root) == Erase(t.root)
    ensures Valid(t.root) ==> Valid(t'.root)
  {
    ExecuteKeepsShape(t.root, t.env, leaf);
    ExecuteKeepsValid(t.root, t.env, leaf);
    Resume(Update(t, leaf), t.passes, leaf)
  }
}

=== FILE: behaviour_tree_properties.dfy ===
/** Properties of the tree driver's lifecycle. */
module BehaviourTreeProperties {
  import opened BTNodes
  import opened BTNodeTraces
  import opened BehaviourTree

  /** The driver's state when only Awake, Start, Run and ticks have acted on
      it: at most one pass is live, and `running` is set exactly when one is. */
  predicate Coherent<W>(t: Tree<W>)
  {
    t.passes <= 1 && (t.running <==> t.passes == 1)
  }

  /** Initialisation leaves the driver coherent and idle. */
  lemma AwakeIsCoherent<W>(useRepeatUntilFailure: bool, useSelector: bool, repeat: bool, world: W)
    ensures Coherent(Awake(useRepeatUntilFailure, useSelector, repeat, world))
  {
  }

  /** Run keeps the driver coherent. */
  lemma RunKeepsCoherent<W>(t: Tree<W>, leaf: (nat, Env<W>) -> (Result, Env<W>))
    requires Coherent(t)
    ensures Coherent(Run(t, leaf))
  {
  }

  /** A tick of a running coherent driver: its one pass executes the root
      once; if the root reports Running the pass stays live, otherwise it
      clears `running` and ends. Update starts nothing, because the tree is
      running. */
  lemma RunningTick<W>(t: Tree<W>, leaf: (nat, Env<W>) -> (Result, Env<W>))
    requires Coherent(t) && t.running
    ensures var o := Execute(t.root, t.env, leaf);
            Tick(t, leaf) == if o.result == Running then t.(root := o.node, env := o.state)
                             else t.(root := o.node, env := o.state, running := false, passes := 0)
  {
    var o := Execute(t.root, t.env, leaf);
    assert Update(t, leaf) == t;
    var next := if o.result == Running then t.(root := o.node, env := o.state)
                else t.(root := o.node, env := o.state, running := false, passes := 0);
    assert Resume(t, 1, leaf) == Resume(next, 0, leaf);
  }

  /** A tick of an idle coherent driver: a new pass starts, executing the root
      once, exactly when `repeat` is set; without `repeat` nothing changes. */
  lemma IdleTick<W>(t: Tree<W>, leaf: (nat, Env<W>) -> (Result, Env<W>))
    requires Coherent(t) && !t.running
    ensures !t.repeat ==> Tick(t, leaf) == t
    ensures t.repeat ==>
              var o := Execute(t.root, t.env, leaf);
              && Tick(t, leaf).root == o.node && Tick(t, leaf).env == o.state
              && (Tick(t, leaf).running <==> o.result == Running)
  {
  }

  /** Ticks keep the driver coherent. */
  lemma TickKeepsCoherent<W>(t: Tree<W>, leaf: (nat, Env<W>) -> (Result, Env<W>))
    requires Coherent(t)
    ensures Coherent(Tick(t, leaf))
  {
    if t.running {
      RunningTick(t, leaf);
    } else {
      IdleTick(t, leaf);
    }
  }

  /** Auto-repeat: with `repeat` set, the tick on which the root finishes is
      followed by a tick that starts a new pass and executes the root again,
      so no tick goes by without the root being executed. */
  lemma AutoRepeat<W>(t: Tree<W>, leaf: (nat, Env<W>) -> (Result, Env<W>))
    requires Coherent(t) && t.running && t.repeat
    requires Execute(t.root, t.env, leaf).result != Running
    ensures var t1 := Tick(t, leaf);
            && !t1.running && t1.repeat && Coherent(t1)
            && Tick(t1, leaf).root == Execute(t1.root, t1.env, leaf).node
  {
    RunningTick(t, leaf);
    var t1 := Tick(t, leaf);
    IdleTick(t1, leaf);
  }

  /** Stop does not end a live pass: on the next tick the pass still executes
      the root, although `running` and `repeat` are now clear. */
  lemma StopDoesNotCancel<W>(t: Tree<W>, leaf: (nat, Env<W>) -> (Result, Env<W>))
    requires t.passes == 1
    ensures var o := Execute(t.root, t.env, leaf);
            var t1 := Tick(Stop(t), leaf);
            && t1.root == o.node && t1.env == o.state
            && !t1.running && !t1.repeat
            && t1.passes == (if o.result == Running then 1 else 0)
  {
    var s := Stop(t);
    assert Update(s, leaf) == s;
    var o := Execute(t.root, t.env, leaf);
    var next := if o.result == Running then s.(root := o.node, env := o.state)
                else s.(root := o.node, env := o.state, running := false, passes := 0);
    assert Resume(s, 1, leaf) == Resume(next, 0, leaf);
  }

  /** Stop then Run while a pass is live and the root keeps running: the old
      pass is not cancelled, so two passes are live and `running` is set. */
  lemma StopThenRunLeavesTwoPasses<W>(t: Tree<W>, leaf: (nat, Env<W>) -> (Result, Env<W>))
    requires Coherent(t) && t.running
    requires Execute(t.root, t.env, leaf).result == Running
    ensures Run(Stop(t), leaf).passes == 2 && Run(Stop(t), leaf).running
  {
  }

  /** While every execution of the root reports Running, resuming `k` passes
      executes the root `k` times in a row and ends none of them. */
  lemma {:induction false} ResumeWhileRunning<W>(t: Tree<W>, k: nat, leaf: (nat, Env<W>) -> (Result, Env<W>))
    requires k <= t.passes
    requires Ticks(t.root, t.env, leaf, k).results == Repeat(Running, k)
    ensures var tr := Ticks(t.root, t.env, leaf, k);
            Resume(t, k, leaf) == t.(root := tr.node, env := tr.state)
    decreases k
  {
    if k > 0 {
      var o := Execute(t.root, t.env, leaf);
      var rest := Ticks(o.node, o.state, leaf, k - 1);
      assert Ticks(t.root, t.env, leaf, k).results == [o.result] + rest.results;
      assert o.result == Repeat(Running, k)[0];
      assert rest.results == Repeat(Running, k - 1) by {
        assert rest.results == Ticks(t.root, t.env, leaf, k).results[1..];
      }
      var next := t.(root := o.node, env := o.state);
      assert Resume(t, k, leaf) == Resume(next, k - 1, leaf);
      ResumeWhileRunning(next, k - 1, leaf);
    }
  }

  /** The number of passes that a run of results ends: every result other
      than Running ends the pass that got it. */
  function Ended(rs: seq<Result>): (n: nat)
    ensures n <= |rs|
    ensures n == 0 <==> forall j :: 0 <= j < |rs| ==> rs[j] == Running
  {
    if |rs| == 0 then 0
    else (if rs[0] == Running then 0 else 1) + Ended(rs[1..])
  }

  /** Resuming `k` passes executes the root exactly `k` times in a row,
      whatever the results: a pass that ends does not stop the passes after
      it from running. The root and host state are those of `k` successive
      executions, one pass ends per non-Running result, and `running`
      survives only if none ended. */
  lemma {:induction false} ResumeIsTicks<W>(t: Tree<W>, k: nat, leaf: (nat, Env<W>) -> (Result, Env<W>))
    requires k <= t.passes
    ensures var tr := Ticks(t.root, t.env, leaf, k);
            var r := Resume(t, k, leaf);
            && r.root == tr.node && r.env == tr.state
            && r.passes == t.passes - Ended(tr.results)
            && (r.running <==> t.running && Ended(tr.results) == 0)
    decreases k
  {
    if k > 0 {
      var o := Execute(t.root, t.env, leaf);
      var rest := Ticks(o.node, o.state, leaf, k - 1);
      var results := Ticks(t.root, t.env, leaf, k).results;
      assert results == [o.result] + rest.results;
      assert results[1..] == rest.results;
      var next :=
        if o.result == Running then t.(root := o.node, env := o.state)
        else t.(root := o.node, env := o.state, running := false, passes := t.passes - 1);
      assert Resume(t, k, leaf) == Resume(next, k - 1, leaf);
      ResumeIsTicks(next, k - 1, leaf);
    }
  }

  /** A tick of a running driver resumes every live pass: the root executes
      once per pass, in a row, even after one of them has ended. */
  lemma TickResumesEveryPass<W>(t: Tree<W>, leaf: (nat, Env<W>) -> (Result, Env<W>))
    requires t.running
    ensures var tr := Ticks(t.root, t.env, leaf, t.passes);
            var t1 := Tick(t, leaf);
            && t1.root == tr.node && t1.env == tr.state
            && t1.passes == t.passes - Ended(tr.results)
  {
    assert Update(t, leaf) == t;
    ResumeIsTicks(t, t.passes, leaf);
  }

  /** After Stop then Run, when Run's execution of the root reports Running,
      the next tick executes the root twice: once for the pass Stop did not
      cancel and once for the pass Run started. */
  lemma StopThenRunTicksTwice<W>(t: Tree<W>, leaf: (nat, Env<W>) -> (Result, Env<W>))
    requires Coherent(t) && t.running
    requires Execute(t.root, t.env, leaf).result == Running
    ensures var t1 := Run(Stop(t), leaf);
            var tr := Ticks(t1.root, t1.env, leaf, 2);
            var t2 := Tick(t1, leaf);
            && t2.root == tr.node && t2.env == tr.state
            && t2.passes == 2 - Ended(tr.results)
  {
    StopThenRunLeavesTwoPasses(t, leaf);
    TickResumesEveryPass(Run(Stop(t), leaf), leaf);
  }

  /** A leaf node stays the same node however often it runs. */
  lemma {:induction false} LeafTicksKeepLeaf<S>(id: nat, s: S, leaf: (nat, S) -> (Result, S), k: nat)
    ensures Ticks(Leaf(id), s, leaf, k).node == Leaf(id)
    decreases k
  {
    if k > 0 {
      LeafTicksKeepLeaf(id, Execute(Leaf(id), s, leaf).state, leaf, k - 1);
    }
  }

  /** Two runs that each end Running, followed by one Failure, read as a
      single run of Running calls and a Failure; UntilFailure leaves it as is. */
  lemma RunningThenFailure(r1: nat, r2: nat)
    ensures (Repeat(Running, r1) + [Running]) + (Repeat(Running, r2) + [Running]) + [Failure]
              == Repeat(Running, r1 + r2 + 2) + [Failure]
    ensures UntilFailure(Repeat(Running, r1 + r2 + 2) + [Failure]) == Repeat(Running, r1 + r2 + 2) + [Failure]
  {
    var lhs := (Repeat(Running, r1) + [Running]) + (Repeat(Running, r2) + [Running]) + [Failure];
    var rhs := Repeat(Running, r1 + r2 + 2) + [Failure];
    assert forall j :: 0 <= j < |rhs| ==> lhs[j] == rhs[j];
    assert forall j :: 0 <= j < |rhs| ==> UntilFailure(rhs)[j] == rhs[j];
  }

  /** The sequence under the repeat-until-failure tree: the two walks run
      in turn, each Running call of theirs is passed up as Running, the
      second arrival moves on to the failing child, and that failure resets
      the cursor. */
  lemma WalkTwiceSequencer<S>(s: S, leaf: (nat, S) -> (Result, S), r1: nat, r2: nat)
    requires Ticks(Leaf(WalkId), s, leaf, r1 + 1).results == Repeat(Running, r1) + [Success]
    requires Ticks(Leaf(WalkId), Ticks(Leaf(WalkId), s, leaf, r1 + 1).state, leaf, r2 + 1).results
               == Repeat(Running, r2) + [Success]
    ensures var cs := [Leaf(WalkId), Leaf(WalkId), Fail];
            var w2 := Ticks(Leaf(WalkId), Ticks(Leaf(WalkId), s, leaf, r1 + 1).state, leaf, r2 + 1);
            Ticks(Sequencer(cs, 0), s, leaf, r1 + r2 + 3)
              == Trace(Repeat(Running, r1 + r2 + 2) + [Failure], Sequencer(cs, 0), w2.state)
  {
    var cs := [Leaf(WalkId), Leaf(WalkId), Fail];
    var w1 := Ticks(Leaf(WalkId), s, leaf, r1 + 1);
    var w2 := Ticks(Leaf(WalkId), w1.state, leaf, r2 + 1);
    LeafTicksKeepLeaf(WalkId, s, leaf, r1 + 1);
    LeafTicksKeepLeaf(WalkId, w1.state, leaf, r2 + 1);
    assert cs[0 := w1.node] == cs && cs[1 := w2.node] == cs && cs[2 := Fail] == cs;
    SequencerWaitsForChild(cs, 0, s, leaf, r1);
    SequencerWaitsForChild(cs, 1, w1.state, leaf, r2);
    var t1 := Ticks(Sequencer(cs, 0), s, leaf, r1 + 1);
    var t2 := Ticks(Sequencer(cs, 1), w1.state, leaf, r2 + 1);
    var t3 := Ticks(Sequencer(cs, 2), w2.state, leaf, 1);
    assert t3 == Trace([Failure], Sequencer(cs, 0), w2.state);
    TicksSplit(Sequencer(cs, 0), s, leaf, r1 + 1, r2 + 1);
    TicksSplit(Sequencer(cs, 0), s, leaf, r1 + r2 + 2, 1);
    RunningThenFailure(r1, r2);
  }

  /** The repeat-until-failure tree walks twice, then stops: if the walk
      reports Running `r1` times before it arrives, and then `r2` times
      before it arrives again, the tree reports Running on every call until
      the call after the second arrival, which fails (ending the pass); the
      tree is then back in its initial configuration, and the host state is
      the one the second walk left. */
  lemma RepeatUntilFailureTreeWalksTwice<S>(s: S, leaf: (nat, S) -> (Result, S), r1: nat, r2: nat)
    requires Ticks(Leaf(WalkId), s, leaf, r1 + 1).results == Repeat(Running, r1) + [Success]
    requires Ticks(Leaf(WalkId), Ticks(Leaf(WalkId), s, leaf, r1 + 1).state, leaf, r2 + 1).results
               == Repeat(Running, r2) + [Success]
    ensures var w2 := Ticks(Leaf(WalkId), Ticks(Leaf(WalkId), s, leaf, r1 + 1).state, leaf, r2 + 1);
            Ticks(RepeatUntilFailureRoot(), s, leaf, r1 + r2 + 3)
              == Trace(Repeat(Running, r1 + r2 + 2) + [Failure], RepeatUntilFailureRoot(), w2.state)
  {
    var cs := [Leaf(WalkId), Leaf(WalkId), Fail];
    WalkTwiceSequencer(s, leaf, r1, r2);
    UntilFailureTicks(Sequencer(cs, 0), s, leaf, r1 + r2 + 3);
    RunningThenFailure(r1, r2);
  }

  /** The selector tree walks once, then stops: if the walk reports Running
      `r` times before it arrives, the tree reports Running on those calls
      and Success on the arrival (ending the pass), never trying another
      child; it is then back in its initial configuration. */
  lemma SelectorTreeWalksOnce<S>(s: S, leaf: (nat, S) -> (Result, S), r: nat)
    requires Ticks(Leaf(WalkId), s, leaf, r + 1).results == Repeat(Running, r) + [Success]
    ensures var w := Ticks(Leaf(WalkId), s, leaf, r + 1);
            Ticks(SelectorRoot(), s, leaf, r + 1) == Trace(Repeat(Running, r) + [Success], SelectorRoot(), w.state)
  {
    var cs := [Leaf(WalkId), Fail, Leaf(WalkId), Leaf(WalkId), Fail];
    var w := Ticks(Leaf(WalkId), s, leaf, r + 1);
    LeafTicksKeepLeaf(WalkId, s, leaf, r + 1);
    assert cs[0 := w.node] == cs;
    SelectorWaitsForChild(cs, 0, s, leaf, r);
  }

  /** With a host whose walk arrives at once, the repeat-until-failure tree
      runs the walk twice in three calls and fails on the third. */
  lemma RepeatUntilFailureTreeLog(log: seq<nat>, script: nat -> Result)
    requires script(WalkId) == Success
    ensures Ticks(RepeatUntilFailureRoot(), log, Logging(script), 3)
              == Trace([Running, Running, Failure], RepeatUntilFailureRoot(), log + [WalkId, WalkId])
  {
    var leaf := Logging(script);
    assert Ticks(Leaf(WalkId), log, leaf, 1) == Trace([Success], Leaf(WalkId), log + [WalkId]);
    assert Ticks(Leaf(WalkId), log + [WalkId], leaf, 1) == Trace([Success], Leaf(WalkId), log + [WalkId] + [WalkId]);
    RepeatUntilFailureTreeWalksTwice(log, leaf, 0, 0);
    assert log + [WalkId] + [WalkId] == log + [WalkId, WalkId];
    assert Repeat(Running, 2) + [Failure] == [Running, Running, Failure];
  }

  /** With a host whose walk arrives at once, one call of the selector tree
      runs the walk once and succeeds. */
  lemma SelectorTreeLog(log: seq<nat>, script: nat -> Result)
    requires script(WalkId) == Success
    ensures Execute(SelectorRoot(), log, Logging(script)) == Step(Success, SelectorRoot(), log + [WalkId])
  {
    var leaf := Logging(script);
    assert Ticks(Leaf(WalkId), log, leaf, 1) == Trace([Success], Leaf(WalkId), log + [WalkId]);
    SelectorTreeWalksOnce(log, leaf, 0);
    assert Repeat(Running, 0) + [Success] == [Success];
  }
}

=== FILE: blackboard.dfy ===
/** The behaviour tree's blackboard: a map from string keys to dynamically
    typed values, with a type-checked read.

    The values the tree stores are modelled as a closed set of tagged
    variants; `Null` is a null reference, which can be stored but has no
    runtime type. */
module Blackboard {

  /** A rectangle given by its corner and size. */
  datatype Rect = Rect(x: real, y: real, width: real, height: real)

  datatype Value = Null | Int(i: int) | Str(s: string) | RectValue(rect: Rect)

  /** The types a read can ask for: the types of the stored values, and
      `object`, to which every value is assignable. */
  datatype Type = IntType | StringType | RectType | ObjectType

  type Board = map<string, Value>

  /** The runtime type of a non-null value. */
  function TypeOf(v: Value): Type
    requires v != Null
  {
    match v
    case Int(_) => IntType
    case Str(_) => StringType
    case RectValue(_) => RectType
  }

  /** Whether a value of the non-null value's runtime type can be assigned to
      a variable of type `t`. */
  predicate AssignableTo(t: Type, v: Value)
    requires v != Null
  {
    t == ObjectType || t == TypeOf(v)
  }

  /** The default value of a type: zero for the value types int and Rect,
      null for the reference types string and object. */
  function Default(t: Type): Value
  {
    match t
    case IntType => Int(0)
    case RectType => RectValue(Rect(0.0, 0.0, 0.0, 0.0))
    case StringType => Null
    case ObjectType => Null
  }

  /** What a typed read yields: whether it matched, and the value written to
      its out parameter; or the null-reference exception raised when the
      stored value is null, since its runtime type is asked for. */
  datatype Lookup = Read(found: bool, value: Value) | NullReference

  /** Store `v` under `key`, replacing any earlier value. */
  function Set(b: Board, key: string, v: Value): (b': Board)
    ensures b'.Keys == b.Keys + {key}
    ensures b'[key] == v
    ensures forall k :: k in b && k != key ==> b'[k] == b[k]
  {
    b[key := v]
  }

  /** Read the value under `key` as a `t`. A missing key, or a stored value
      whose type is not assignable to `t`, yields false and `t`'s default;
      otherwise the read yields true and the stored value. The board itself
      is never changed. */
  function TryGet(b: Board, key: string, t: Type): (r: Lookup)
    ensures key !in b ==> r == Read(false, Default(t))
    ensures r.NullReference? <==> key in b && b[key] == Null
    ensures r.Read? && r.found ==> key in b && r.value == b[key] && AssignableTo(t, r.value)
    ensures r.Read? && !r.found ==> r.value == Default(t)
    ensures key in b && b[key] != Null ==> r.Read? && (r.found <==> AssignableTo(t, b[key]))
  {
    if key in b then
      var o := b[key];
      if o == Null then NullReference
      else
        var matches := AssignableTo(t, o);
        Read(matches, if matches then o else Default(t))
    else
      Read(false, Default(t))
  }

  /** Reading back what was just stored, at its own type or as an object,
      yields it; reads of other keys are unaffected by the store. */
  lemma SetThenTryGet(b: Board, key: string, v: Value, other: string, t: Type)
    requires v != Null
    ensures TryGet(Set(b, key, v), key, TypeOf(v)) == Read(true, v)
    ensures TryGet(Set(b, key, v), key, ObjectType) == Read(true, v)
    ensures other != key ==> TryGet(Set(b, key, v), other, t) == TryGet(b, other, t)
  {
  }

  /** The blackboard's type-safety examples: after storing the int 5 under
      "k", reading "k" as a string yields (null, false), reading it as an int
      yields (5, true), and reading a missing key as an int yields (0, false). */
  lemma TypeSafetyExamples(b: Board)
    requires "missing" !in b
    ensures TryGet(Set(b, "k", Int(5)), "k", StringType) == Read(false, Null)
    ensures TryGet(Set(b, "k", Int(5)), "k", IntType) == Read(true, Int(5))
    ensures TryGet(Set(b, "k", Int(5)), "missing", IntType) == Read(false, Int(0))
  {
  }
}

=== FILE: bt_node_properties.dfy ===
/** Properties of the node kinds' Execute: one-call behaviour of every kind. */
module BTNodeProperties {
  import opened BTNodes

  // ---------------------------------------------------------------------
  // One call of each node kind, for any host.
  // ---------------------------------------------------------------------

  /** A node that keeps the base class's Execute fails and changes nothing. */
  lemma DefaultFails<S>(s: S, leaf: (nat, S) -> (Result, S))
    ensures Execute(Default, s, leaf) == Step(Failure, Default, s)
  {
  }

  /** The Fail node fails without running anything or changing any state. */
  lemma FailTouchesNothing<S>(s: S, leaf: (nat, S) -> (Result, S))
    ensures Execute(Fail, s, leaf) == Step(Failure, Fail, s)
  {
  }

  /** A Sequencer whose cursor is on a child runs exactly that child: the host
      state afterwards is the one that child leaves, the other children are
      untouched, and the child's result decides the rest:
      Running keeps the cursor, Failure resets it, Success moves it one step
      and reports Running unless that was the last child, in which case the
      cursor resets and the Sequencer succeeds. */
  lemma SequencerStep<S>(cs: seq<Node>, k: nat, s: S, leaf: (nat, S) -> (Result, S))
    requires k < |cs|
    ensures var c := Execute(cs[k], s, leaf);
            var o := Execute(Sequencer(cs, k), s, leaf);
            && o.state == c.state
            && o.node.children == cs[k := c.node]
            && (c.result == Running ==> o.result == Running && o.node.cursor == k)
            && (c.result == Failure ==> o.result == Failure && o.node.cursor == 0)
            && (c.result == Success && k + 1 < |cs| ==> o.result == Running && o.node.cursor == k + 1)
            && (c.result == Success && k + 1 == |cs| ==> o.result == Success && o.node.cursor == 0)
  {
  }

  /** A Sequencer with no child left to run (no children at all, or a cursor
      past the end) succeeds at once, resets its cursor and runs nothing. */
  lemma SequencerFinished<S>(cs: seq<Node>, k: nat, s: S, leaf: (nat, S) -> (Result, S))
    requires |cs| <= k
    ensures Execute(Sequencer(cs, k), s, leaf) == Step(Success, Sequencer(cs, 0), s)
  {
  }

  /** The Repeater runs its child exactly once and reports Running whatever
      the child reported. */
  lemma RepeaterStep<S>(c: Node, s: S, leaf: (nat, S) -> (Result, S))
    ensures var inner := Execute(c, s, leaf);
            Execute(Repeater(c), s, leaf) == Step(Running, Repeater(inner.node), inner.state)
  {
  }

  /** RepeatUntilFailure runs its child exactly once; it fails exactly when the
      child failed and reports Running otherwise. */
  lemma RepeatUntilFailureStep<S>(c: Node, s: S, leaf: (nat, S) -> (Result, S))
    ensures var inner := Execute(c, s, leaf);
            var o := Execute(RepeatUntilFailure(c), s, leaf);
            && o.node == RepeatUntilFailure(inner.node)
            && o.state == inner.state
            && (o.result == Failure <==> inner.result == Failure)
            && (o.result == Running <==> inner.result != Failure)
  {
  }

  /** The Selector's first attempt: a Running child stops the call with the
      cursor left on it; a successful child stops the call with the cursor
      reset; a failed child hands over, in the same call and on the state it
      left, to the next child. */
  lemma SelectorAttempt<S>(cs: seq<Node>, k: nat, s: S, leaf: (nat, S) -> (Result, S))
    requires k < |cs|
    ensures var c := Execute(cs[k], s, leaf);
            var o := Execute(Selector(cs, k), s, leaf);
            && (c.result == Running ==> o == Step(Running, Selector(cs[k := c.node], k), c.state))
            && (c.result == Success ==> o == Step(Success, Selector(cs[k := c.node], 0), c.state))
            && (c.result == Failure ==>
                  var rest := SelectorLoop(Selector(cs, k), k + 1, c.state, leaf);
                  o == Step(rest.result, Selector(rest.children[k := c.node], rest.cursor), rest.state))
  {
    var n := Selector(cs, k);
    var l := SelectorLoop(n, k, s, leaf);
    assert Execute(n, s, leaf) == Step(l.result, Selector(l.children, l.cursor), l.state);
  }

  /** A Selector with no child left to try fails at once and resets its cursor. */
  lemma SelectorFinished<S>(cs: seq<Node>, k: nat, s: S, leaf: (nat, S) -> (Result, S))
    requires |cs| <= k
    ensures Execute(Selector(cs, k), s, leaf) == Step(Failure, Selector(cs, 0), s)
  {
  }

  /** A failed child hands the Selector's loop over to the next child, on the
      state the failed child left. */
  lemma SelectorLoopFailStep<S>(n: Node, i: nat, s: S, leaf: (nat, S) -> (Result, S))
    requires n.Selector? && i < |n.children|
    requires Execute(n.children[i], s, leaf).result == Failure
    ensures var o := Execute(n.children[i], s, leaf);
            var rest := SelectorLoop(n, i + 1, o.state, leaf);
            SelectorLoop(n, i, s, leaf) == Scan(rest.result, rest.children[i := o.node], rest.cursor, rest.state)
  {
  }

  /** A child that does not fail stops the Selector's loop on the spot,
      whatever children follow it. */
  lemma SelectorLoopStopsAt<S>(cs: seq<Node>, tail: seq<Node>, k: nat, i: nat,
                               s: S, leaf: (nat, S) -> (Result, S))
    requires i < |cs|
    requires Execute(cs[i], s, leaf).result != Failure
    ensures var l := SelectorLoop(Selector(cs, k), i, s, leaf);
            SelectorLoop(Selector(cs + tail, k), i, s, leaf) == Scan(l.result, l.children + tail, l.cursor, l.state)
  {
    var o := Execute(cs[i], s, leaf);
    assert (cs + tail)[i] == cs[i];
    assert (cs + tail)[i := o.node] == cs[i := o.node] + tail;
  }

  /** Children after the one that stops the Selector's loop are never run:
      appending any children behind them changes neither the result, nor the
      host state, nor the cursor. */
  lemma {:induction false} SelectorLoopIgnoresTail<S>(cs: seq<Node>, tail: seq<Node>, k: nat, i: nat,
                                                       s: S, leaf: (nat, S) -> (Result, S))
    requires SelectorLoop(Selector(cs, k), i, s, leaf).result != Failure
    ensures var l := SelectorLoop(Selector(cs, k), i, s, leaf);
            SelectorLoop(Selector(cs + tail, k), i, s, leaf) == Scan(l.result, l.children + tail, l.cursor, l.state)
    decreases |cs| - i
  {
    var n, m := Selector(cs, k), Selector(cs + tail, k);
    assert i < |cs|;
    var o := Execute(cs[i], s, leaf);
    if o.result != Failure {
      SelectorLoopStopsAt(cs, tail, k, i, s, leaf);
    } else {
      assert m.children[i] == cs[i];
      SelectorLoopFailStep(n, i, s, leaf);
      SelectorLoopFailStep(m, i, s, leaf);
      SelectorLoopIgnoresTail(cs, tail, k, i + 1, o.state, leaf);
      var rest := SelectorLoop(n, i + 1, o.state, leaf);
      assert (rest.children + tail)[i := o.node] == rest.children[i := o.node] + tail;
    }
  }
}

=== FILE: bt_node_traces.dfy ===
/** Multi-call behaviour of the node kinds, checked against a host that
    logs which leaves ran. */
module BTNodeTraces {
  import opened BTNodes
  import opened BTNodeProperties

  // ---------------------------------------------------------------------
  // Several calls in a row, and a host that logs which leaves ran.
  // ---------------------------------------------------------------------

  /** The results of `k` successive calls of Execute on the same node, each
      call starting from the node and host state the previous one left. */
  datatype Trace<S> = Trace(results: seq<Result>, node: Node, state: S)

  function Ticks<S>(n: Node, s: S, leaf: (nat, S) -> (Result, S), k: nat): (t: Trace<S>)
    ensures |t.results| == k
    decreases k
  {
    if k == 0 then Trace([], n, s)
    else
      var o := Execute(n, s, leaf);
      var rest := Ticks(o.node, o.state, leaf, k - 1);
      Trace([o.result] + rest.results, rest.node, rest.state)
  }

  /** `k` copies of `x`. */
  function Repeat<T>(x: T, k: nat): (r: seq<T>)
    ensures |r| == k
    ensures forall j :: 0 <= j < k ==> r[j] == x
  {
    seq(k, _ => x)
  }

  /** A host whose leaves answer from a fixed script and append their id to
      a log, so that the log records which leaves ran, in order. */
  function Logging(script: nat -> Result): (nat, seq<nat>) -> (Result, seq<nat>)
  {
    (id: nat, log: seq<nat>) => (script(id), log + [id])
  }

  predicate AllLeaves(cs: seq<Node>)
  {
    forall j :: 0 <= j < |cs| ==> cs[j].Leaf?
  }

  /** The ids of a list of leaves. */
  function Ids(cs: seq<Node>): (ids: seq<nat>)
    requires AllLeaves(cs)
    ensures |ids| == |cs|
    ensures forall j :: 0 <= j < |cs| ==> ids[j] == cs[j].id
  {
    seq(|cs|, j requires 0 <= j < |cs| => cs[j].id)
  }

  /** The first position at or after `i` whose leaf does not fail under the
      script, or |cs| when every leaf from `i` on fails. */
  function FirstNonFailure(cs: seq<Node>, i: nat, script: nat -> Result): (j: nat)
    requires AllLeaves(cs) && i <= |cs|
    ensures i <= j <= |cs|
    ensures forall m :: i <= m < j ==> script(cs[m].id) == Failure
    ensures j < |cs| ==> script(cs[j].id) != Failure
    decreases |cs| - i
  {
    if i == |cs| || script(cs[i].id) != Failure then i else FirstNonFailure(cs, i + 1, script)
  }

  /** The Selector's loop over leaves, from position `i`, against a reference
      description: it runs the leaves from `i` up to and including the first
      one that does not fail (all of them when every one fails) and no other;
      it returns that leaf's result, or Failure when there is none; the
      cursor stays on a Running leaf and is reset otherwise. */
  ghost predicate ScansLeaves(cs: seq<Node>, k: nat, i: nat, log: seq<nat>, script: nat -> Result)
    requires AllLeaves(cs) && i <= |cs|
  {
    var j := FirstNonFailure(cs, i, script);
    var last := if j < |cs| then j + 1 else |cs|;
    var r := if j < |cs| then script(cs[j].id) else Failure;
    SelectorLoop(Selector(cs, k), i, log, Logging(script))
      == Scan(r, cs, if r == Running then j else 0, log + Ids(cs)[i..last])
  }

  /** A leaf under the logging host answers from the script and logs its id. */
  lemma LeafLogs(cs: seq<Node>, i: nat, log: seq<nat>, script: nat -> Result)
    requires AllLeaves(cs) && i < |cs|
    ensures Execute(cs[i], log, Logging(script)) == Step(script(cs[i].id), cs[i], log + [cs[i].id])
  {
  }

  lemma ScansLeavesAtEnd(cs: seq<Node>, k: nat, log: seq<nat>, script: nat -> Result)
    requires AllLeaves(cs)
    ensures ScansLeaves(cs, k, |cs|, log, script)
  {
    assert log + Ids(cs)[|cs|..|cs|] == log;
  }

  lemma ScansLeavesStop(cs: seq<Node>, k: nat, i: nat, log: seq<nat>, script: nat -> Result)
    requires AllLeaves(cs) && i < |cs|
    requires script(cs[i].id) != Failure
    ensures ScansLeaves(cs, k, i, log, script)
  {
    LeafLogs(cs, i, log, script);
    assert cs[i := cs[i]] == cs;
    assert Ids(cs)[i..i + 1] == [cs[i].id];
  }

  lemma ScansLeavesFail(cs: seq<Node>, k: nat, i: nat, log: seq<nat>, script: nat -> Result)
    requires AllLeaves(cs) && i < |cs|
    requires script(cs[i].id) == Failure
    requires ScansLeaves(cs, k, i + 1, log + [cs[i].id], script)
    ensures ScansLeaves(cs, k, i, log, script)
  {
    LeafLogs(cs, i, log, script);
    SelectorLoopFailStep(Selector(cs, k), i, log, Logging(script));
    assert cs[i := cs[i]] == cs;
    var j := FirstNonFailure(cs, i, script);
    assert j == FirstNonFailure(cs, i + 1, script);
    var last := if j < |cs| then j + 1 else |cs|;
    assert Ids(cs)[i..last] == [cs[i].id] + Ids(cs)[i + 1..last];
    assert log + [cs[i].id] + Ids(cs)[i + 1..last] == log + Ids(cs)[i..last];
  }

  /** The Selector's loop over leaves meets the reference description. */
  lemma {:induction false} SelectorOverLeaves(cs: seq<Node>, k: nat, i: nat, log: seq<nat>, script: nat -> Result)
    requires AllLeaves(cs) && i <= |cs|
    ensures ScansLeaves(cs, k, i, log, script)
    decreases |cs| - i
  {
    if i == |cs| {
      ScansLeavesAtEnd(cs, k, log, script);
    } else if script(cs[i].id) != Failure {
      ScansLeavesStop(cs, k, i, log, script);
    } else {
      SelectorOverLeaves(cs, k, i + 1, log + [cs[i].id], script);
      ScansLeavesFail(cs, k, i, log, script);
    }
  }

  /** The case of the selector short-circuit with children Failure, Failure,
      Success and a fourth leaf: one call runs the first three leaves,
      succeeds with the cursor reset, and never runs the fourth. */
  lemma SelectorShortCircuitExample(script: nat -> Result)
    requires script(0) == Failure && script(1) == Failure && script(2) == Success
    ensures var cs := [Leaf(0), Leaf(1), Leaf(2), Leaf(3)];
            Execute(Selector(cs, 0), [], Logging(script)) == Step(Success, Selector(cs, 0), [0, 1, 2])
  {
    var cs := [Leaf(0), Leaf(1), Leaf(2), Leaf(3)];
    var n := Selector(cs, 0);
    SelectorOverLeaves(cs, 0, 0, [], script);
    var l := SelectorLoop(n, 0, [], Logging(script));
    assert Execute(n, [], Logging(script)) == Step(l.result, Selector(l.children, l.cursor), l.state);
    assert FirstNonFailure(cs, 0, script) == 2 by {
      assert FirstNonFailure(cs, 2, script) == 2;
      assert FirstNonFailure(cs, 1, script) == FirstNonFailure(cs, 2, script);
    }
    assert Ids(cs)[0..3] == [0, 1, 2];
    assert cs[2].id == 2;
    assert ScansLeaves(cs, 0, 0, [], script);
    assert [] + Ids(cs)[0..3] == [0, 1, 2];
    assert l == Scan(Success, cs, 0, [0, 1, 2]);
  }

  /** Selector exhaustion: when every leaf from the cursor on fails, one call
      runs all of them and fails with the cursor reset. */
  lemma SelectorExhaustion(cs: seq<Node>, k: nat, log: seq<nat>, script: nat -> Result)
    requires AllLeaves(cs) && k <= |cs|
    requires forall j :: k <= j < |cs| ==> script(cs[j].id) == Failure
    ensures Execute(Selector(cs, k), log, Logging(script)) == Step(Failure, Selector(cs, 0), log + Ids(cs)[k..])
  {
    var n := Selector(cs, k);
    SelectorOverLeaves(cs, k, k, log, script);
    var l := SelectorLoop(n, k, log, Logging(script));
    assert Execute(n, log, Logging(script)) == Step(l.result, Selector(l.children, l.cursor), l.state);
    assert FirstNonFailure(cs, k, script) == |cs|;
    assert Ids(cs)[k..|cs|] == Ids(cs)[k..];
    assert l == Scan(Failure, cs, 0, log + Ids(cs)[k..]);
  }

  /** Sequencer progress: with leaves that succeed at once, a Sequencer whose
      cursor is at `k` runs one leaf per call, reports Running on every call
      but the one that runs the last leaf, then Success, and ends with its
      cursor back at 0. */
  lemma {:induction false} SequencerProgress(cs: seq<Node>, k: nat, log: seq<nat>, script: nat -> Result)
    requires AllLeaves(cs) && k < |cs|
    requires forall j :: 0 <= j < |cs| ==> script(cs[j].id) == Success
    ensures Ticks(Sequencer(cs, k), log, Logging(script), |cs| - k)
              == Trace(Repeat(Running, |cs| - k - 1) + [Success], Sequencer(cs, 0), log + Ids(cs)[k..])
    decreases |cs| - k
  {
    var leaf := Logging(script);
    var o := Execute(Sequencer(cs, k), log, leaf);
    assert Execute(cs[k], log, leaf) == Step(Success, cs[k], log + [cs[k].id]);
    assert cs[k := cs[k]] == cs;
    if k + 1 == |cs| {
      assert o == Step(Success, Sequencer(cs, 0), log + [cs[k].id]);
      assert Ids(cs)[k..] == [cs[k].id];
    } else {
      assert o == Step(Running, Sequencer(cs, k + 1), log + [cs[k].id]);
      SequencerProgress(cs, k + 1, log + [cs[k].id], script);
      assert Ids(cs)[k..] == [cs[k].id] + Ids(cs)[k + 1..];
      assert log + [cs[k].id] + Ids(cs)[k + 1..] == log + Ids(cs)[k..];
      assert [Running] + (Repeat(Running, |cs| - k - 2) + [Success])
             == Repeat(Running, |cs| - k - 1) + [Success];
    }
  }

  /** A Sequencer waits on a child that reports Running: if the child at the
      cursor, called `r + 1` times in a row, reports Running `r` times and
      then Success, the Sequencer called `r + 1` times from the same state
      reports Running on every call, except that the last call succeeds when
      that child was the last one. Meanwhile it runs only that child, its
      cursor stays put, and afterwards it moves on to the next child (or
      resets to 0 after the last). */
  lemma {:induction false} SequencerWaitsForChild<S>(cs: seq<Node>, k: nat, s: S, leaf: (nat, S) -> (Result, S), r: nat)
    requires k < |cs|
    requires Ticks(cs[k], s, leaf, r + 1).results == Repeat(Running, r) + [Success]
    ensures var c := Ticks(cs[k], s, leaf, r + 1);
            var last := k + 1 == |cs|;
            Ticks(Sequencer(cs, k), s, leaf, r + 1)
              == Trace(Repeat(Running, r) + [if last then Success else Running],
                       Sequencer(cs[k := c.node], if last then 0 else k + 1), c.state)
    decreases r
  {
    var o := Execute(cs[k], s, leaf);
    var c := Ticks(cs[k], s, leaf, r + 1);
    var rest := Ticks(o.node, o.state, leaf, r);
    assert c.results == [o.result] + rest.results;
    assert o.result == c.results[0];
    SequencerStep(cs, k, s, leaf);
    var cs' := cs[k := o.node];
    if r == 0 {
      assert o.result == Success;
      assert Ticks(Sequencer(cs, k), s, leaf, 1).results == [Execute(Sequencer(cs, k), s, leaf).result];
    } else {
      assert o.result == Running;
      assert Execute(Sequencer(cs, k), s, leaf) == Step(Running, Sequencer(cs', k), o.state);
      assert rest.results == Repeat(Running, r - 1) + [Success] by {
        assert rest.results == c.results[1..];
      }
      assert cs'[k] == o.node;
      SequencerWaitsForChild(cs', k, o.state, leaf, r - 1);
      assert cs'[k := rest.node] == cs[k := rest.node];
      assert [Running] + (Repeat(Running, r - 1) + [if k + 1 == |cs| then Success else Running])
             == Repeat(Running, r) + [if k + 1 == |cs| then Success else Running];
    }
  }

  /** `a + b` calls are `a` calls followed by `b` more from where they left
      the node and the host state. */
  lemma {:induction false} TicksSplit<S>(n: Node, s: S, leaf: (nat, S) -> (Result, S), a: nat, b: nat)
    ensures var t1 := Ticks(n, s, leaf, a);
            var t2 := Ticks(t1.node, t1.state, leaf, b);
            Ticks(n, s, leaf, a + b) == Trace(t1.results + t2.results, t2.node, t2.state)
    decreases a
  {
    if a > 0 {
      var o := Execute(n, s, leaf);
      TicksSplit(o.node, o.state, leaf, a - 1, b);
      var t1 := Ticks(o.node, o.state, leaf, a - 1);
      var t2 := Ticks(t1.node, t1.state, leaf, b);
      assert [o.result] + (t1.results + t2.results) == ([o.result] + t1.results) + t2.results;
    } else {
      var t2 := Ticks(n, s, leaf, b);
      assert [] + t2.results == t2.results;
    }
  }

  /** What RepeatUntilFailure reports for each of its child's results. */
  function UntilFailure(rs: seq<Result>): (us: seq<Result>)
    ensures |us| == |rs|
    ensures forall j :: 0 <= j < |rs| ==> (us[j] == Failure <==> rs[j] == Failure)
    ensures forall j :: 0 <= j < |rs| ==> (us[j] == Running <==> rs[j] != Failure)
  {
    seq(|rs|, j requires 0 <= j < |rs| => if rs[j] == Failure then Failure else Running)
  }

  /** `k` calls of RepeatUntilFailure are `k` calls of its child, with each
      result other than Failure reported as Running. */
  lemma {:induction false} UntilFailureTicks<S>(c: Node, s: S, leaf: (nat, S) -> (Result, S), k: nat)
    ensures var t := Ticks(c, s, leaf, k);
            Ticks(RepeatUntilFailure(c), s, leaf, k) == Trace(UntilFailure(t.results), RepeatUntilFailure(t.node), t.state)
    decreases k
  {
    if k > 0 {
      var o := Execute(c, s, leaf);
      UntilFailureTicks(o.node, o.state, leaf, k - 1);
      var rest := Ticks(o.node, o.state, leaf, k - 1);
      var head := if o.result == Failure then Failure else Running;
      assert Execute(RepeatUntilFailure(c), s, leaf) == Step(head, RepeatUntilFailure(o.node), o.state);
      assert UntilFailure([o.result] + rest.results) == [head] + UntilFailure(rest.results);
    } else {
      assert UntilFailure([]) == [];
    }
  }

  /** A Selector waits on a child that reports Running: if the child at the
      cursor, called `r + 1` times in a row, reports Running `r` times and
      then Success, the Selector called `r + 1` times from the same state
      reports the same results, runs only that child, keeps its cursor on it
      meanwhile and resets it at the end. */
  lemma {:induction false} SelectorWaitsForChild<S>(cs: seq<Node>, k: nat, s: S, leaf: (nat, S) -> (Result, S), r: nat)
    requires k < |cs|
    requires Ticks(cs[k], s, leaf, r + 1).results == Repeat(Running, r) + [Success]
    ensures var c := Ticks(cs[k], s, leaf, r + 1);
            Ticks(Selector(cs, k), s, leaf, r + 1)
              == Trace(Repeat(Running, r) + [Success], Selector(cs[k := c.node], 0), c.state)
    decreases r
  {
    var o := Execute(cs[k], s, leaf);
    var c := Ticks(cs[k], s, leaf, r + 1);
    var rest := Ticks(o.node, o.state, leaf, r);
    assert c.results == [o.result] + rest.results;
    assert o.result == c.results[0];
    SelectorAttempt(cs, k, s, leaf);
    var cs' := cs[k := o.node];
    if r == 0 {
      assert o.result == Success;
      assert Ticks(Selector(cs, k), s, leaf, 1).results == [Execute(Selector(cs, k), s, leaf).result];
    } else {
      assert o.result == Running;
      assert Execute(Selector(cs, k), s, leaf) == Step(Running, Selector(cs', k), o.state);
      assert rest.results == Repeat(Running, r - 1) + [Success] by {
        assert rest.results == c.results[1..];
      }
      assert cs'[k] == o.node;
      SelectorWaitsForChild(cs', k, o.state, leaf, r - 1);
      assert cs'[k := rest.node] == cs[k := rest.node];
      assert [Running] + (Repeat(Running, r - 1) + [Success]) == Repeat(Running, r) + [Success];
    }
  }

  /** RepeatUntilFailure over a leaf that never fails reports Running on
      every one of `k` calls and runs the leaf once per call. */
  lemma {:induction false} RepeatUntilFailureKeepsRunning(id: nat, log: seq<nat>, script: nat -> Result, k: nat)
    requires script(id) != Failure
    ensures Ticks(RepeatUntilFailure(Leaf(id)), log, Logging(script), k)
              == Trace(Repeat(Running, k), RepeatUntilFailure(Leaf(id)), log + Repeat(id, k))
    decreases k
  {
    var n := RepeatUntilFailure(Leaf(id));
    if k > 0 {
      assert Execute(Leaf(id), log, Logging(script)) == Step(script(id), Leaf(id), log + [id]);
      assert Execute(n, log, Logging(script)) == Step(Running, n, log + [id]);
      RepeatUntilFailureKeepsRunning(id, log + [id], script, k - 1);
      assert [Running] + Repeat(Running, k - 1) == Repeat(Running, k);
      assert log + [id] + Repeat(id, k - 1) == log + Repeat(id, k);
    } else {
      assert log + Repeat(id, 0) == log;
    }
  }
}

=== FILE: bt_nodes.dfy ===
/** The node kinds of the Lab11 behaviour tree and their Execute operation.

    A node is an immutable value: one call of Execute returns the node's
    result together with the node as it is afterwards (only the cursors of
    Sequencer and Selector nodes ever change). Leaf behaviours are supplied
    by the host as an oracle over a state `S` that the call threads through,
    in execution order, every leaf it runs. */
module BTNodes {

  /** Outcome of one Execute call. */
  datatype Result = Running | Failure | Success

  /** The node kinds. `Default` is a node whose kind keeps the base class's
      Execute; `Leaf(id)` is a host-supplied behaviour such as the random
      walk, run by the oracle under its id (occurrences that share an id
      share the behaviour object, and its private state lives in `S`);
      `Fail` is the constant failing node. The composites carry their
      child list, fixed at construction, and their cursor. */
  datatype Node =
    | Default
    | Leaf(id: nat)
    | Fail
    | Sequencer(children: seq<Node>, cursor: nat)
    | Selector(children: seq<Node>, cursor: nat)
    | Repeater(child: Node)
    | RepeatUntilFailure(child: Node)

  /** Result of executing one node: its result, the node afterwards and
      the host state afterwards. */
  datatype Step<S> = Step(result: Result, node: Node, state: S)

  /** Result of the selector's loop: the result, the children and cursor
      afterwards and the host state afterwards. */
  datatype Scan<S> = Scan(result: Result, children: seq<Node>, cursor: nat, state: S)

  /** A node's shape: the node with every cursor set to 0. Two nodes with the
      same shape differ at most in their cursors. */
  function Erase(n: Node): Node
    decreases n
  {
    match n
    case Sequencer(cs, _) => Sequencer(seq(|cs|, j requires 0 <= j < |cs| => Erase(cs[j])), 0)
    case Selector(cs, _) => Selector(seq(|cs|, j requires 0 <= j < |cs| => Erase(cs[j])), 0)
    case Repeater(c) => Repeater(Erase(c))
    case RepeatUntilFailure(c) => RepeatUntilFailure(Erase(c))
    case _ => n
  }

  /** The shape of a child list, element by element. */
  function EraseAll(cs: seq<Node>): (es: seq<Node>)
    ensures |es| == |cs|
    ensures forall j :: 0 <= j < |cs| ==> es[j] == Erase(cs[j])
  {
    seq(|cs|, j requires 0 <= j < |cs| => Erase(cs[j]))
  }

  /** A cursor that a composite with `count` children can hold between calls:
      an index of a child, or 0 when there are no children. */
  predicate CursorInRange(cursor: nat, count: nat)
  {
    cursor < count || cursor == 0
  }

  /** Every composite in the tree holds a cursor in range. */
  predicate Valid(n: Node)
    decreases n
  {
    match n
    case Sequencer(cs, k) => CursorInRange(k, |cs|) && AllValid(cs)
    case Selector(cs, k) => CursorInRange(k, |cs|) && AllValid(cs)
    case Repeater(c) => Valid(c)
    case RepeatUntilFailure(c) => Valid(c)
    case _ => true
  }

  /** Every node of a child list is valid. */
  predicate AllValid(cs: seq<Node>)
  {
    forall j :: 0 <= j < |cs| ==> Valid(cs[j])
  }

  /** Replacing one child by a node of the same shape keeps the list's shape. */
  lemma EraseAllUpdate(cs: seq<Node>, i: nat, c: Node)
    requires i < |cs|
    requires Erase(c) == Erase(cs[i])
    ensures EraseAll(cs[i := c]) == EraseAll(cs)
  {
    assert forall j :: 0 <= j < |cs| ==> EraseAll(cs[i := c])[j] == EraseAll(cs)[j];
  }

  /** One call of a node's Execute.

      - Default and Fail return Failure and touch nothing.
      - A Leaf asks the oracle.
      - Repeater runs its child once and returns Running.
      - RepeatUntilFailure runs its child once and returns Failure exactly
        when the child failed, Running otherwise.
      - Sequencer runs the child at its cursor, at most one child per call.
      - Selector runs children from its cursor onward within the call until
        one does not fail. */
  function Execute<S>(n: Node, s: S, leaf: (nat, S) -> (Result, S)): (o: Step<S>)
    ensures n.Sequencer? ==> o.node.Sequencer?
    ensures n.Selector? ==> o.node.Selector?
    ensures (n.Sequencer? || n.Selector?) ==> CursorInRange(o.node.cursor, |o.node.children|)
    ensures (n.Sequencer? || n.Selector?) && o.result != Running ==> o.node.cursor == 0
    ensures n.Fail? || n.Default? ==> o == Step(Failure, n, s)
    ensures n.Repeater? ==> o.result == Running
    ensures n.RepeatUntilFailure? ==> o.result != Success
    decreases n, 1, 0
  {
    match n
    case Default => Step(Failure, n, s)
    case Fail => Step(Failure, n, s)
    case Leaf(id) =>
      var (r, s') := leaf(id, s);
      Step(r, n, s')
    case Repeater(c) =>
      var o := Execute(c, s, leaf);
      Step(Running, Repeater(o.node), o.state)
    case RepeatUntilFailure(c) =>
      var o := Execute(c, s, leaf);
      Step(if o.result == Failure then Failure else Running, RepeatUntilFailure(o.node), o.state)
    case Sequencer(cs, k) =>
      if k < |cs| then
        var o := Execute(cs[k], s, leaf);
        var cs' := cs[k := o.node];
        if o.result == Running then Step(Running, Sequencer(cs', k), o.state)
        else if o.result == Failure then Step(Failure, Sequencer(cs', 0), o.state)
        else if k + 1 < |cs| then Step(Running, Sequencer(cs', k + 1), o.state)
        else Step(Success, Sequencer(cs', 0), o.state)
      else
        Step(Success, Sequencer(cs, 0), s)
    case Selector(cs, k) =>
      var l := SelectorLoop(n, k, s, leaf);
      Step(l.result, Selector(l.children, l.cursor), l.state)
  }

  /** The selector's loop, entered with the cursor at `i`: run the child at
      `i`; Running stops the loop with the cursor left on that child,
      Success stops it with the cursor reset, Failure moves on to the next
      child in the same call; running out of children yields Failure with
      the cursor reset. The loop ends because |children| - i shrinks on
      every failed child. */
  function SelectorLoop<S>(n: Node, i: nat, s: S, leaf: (nat, S) -> (Result, S)): (l: Scan<S>)
    requires n.Selector?
    ensures |l.children| == |n.children|
    ensures l.result == Running ==> i <= l.cursor < |n.children|
    ensures l.result != Running ==> l.cursor == 0
    ensures i >= |n.children| ==> l == Scan(Failure, n.children, 0, s)
    decreases n, 0, |n.children| - i
  {
    var cs := n.children;
    if i >= |cs| then Scan(Failure, cs, 0, s)
    else
      var o := Execute(cs[i], s, leaf);
      if o.result == Running then Scan(Running, cs[i := o.node], i, o.state)
      else if o.result == Success then Scan(Success, cs[i := o.node], 0, o.state)
      else
        var rest := SelectorLoop(n, i + 1, o.state, leaf);
        Scan(rest.result, rest.children[i := o.node], rest.cursor, rest.state)
  }

  /** Execute changes nothing but cursors: the children lists are fixed at
      construction. */
  lemma {:induction false} ExecuteKeepsShape<S>(n: Node, s: S, leaf: (nat, S) -> (Result, S))
    ensures Erase(Execute(n, s, leaf).node) == Erase(n)
    decreases n, 1, 0
  {
    match n
    case Repeater(c) =>
      ExecuteKeepsShape(c, s, leaf);
    case RepeatUntilFailure(c) =>
      ExecuteKeepsShape(c, s, leaf);
    case Sequencer(cs, k) =>
      if k < |cs| {
        var o := Execute(cs[k], s, leaf);
        ExecuteKeepsShape(cs[k], s, leaf);
        EraseAllUpdate(cs, k, o.node);
      }
    case Selector(cs, k) =>
      SelectorLoopKeepsShape(n, k, s, leaf);
    case _ =>
  }

  /** The selector's loop changes nothing but cursors, and leaves every child
      before its starting point as it was. */
  lemma {:induction false} SelectorLoopKeepsShape<S>(n: Node, i: nat, s: S, leaf: (nat, S) -> (Result, S))
    requires n.Selector?
    ensures var l := SelectorLoop(n, i, s, leaf);
            && EraseAll(l.children) == EraseAll(n.children)
            && forall j :: 0 <= j < i && j < |n.children| ==> l.children[j] == n.children[j]
    decreases n, 0, |n.children| - i
  {
    var cs := n.children;
    if i < |cs| {
      var o := Execute(cs[i], s, leaf);
      ExecuteKeepsShape(cs[i], s, leaf);
      EraseAllUpdate(cs, i, o.node);
      if o.result == Failure {
        var rest := SelectorLoop(n, i + 1, o.state, leaf);
        SelectorLoopKeepsShape(n, i + 1, o.state, leaf);
        EraseAllUpdate(rest.children, i, o.node);
      }
    }
  }

  /** Execute keeps every cursor of the tree in range. */
  lemma {:induction false} ExecuteKeepsValid<S>(n: Node, s: S, leaf: (nat, S) -> (Result, S))
    ensures Valid(n) ==> Valid(Execute(n, s, leaf).node)
    decreases n, 1, 0
  {
    match n
    case Repeater(c) =>
      ExecuteKeepsValid(c, s, leaf);
    case RepeatUntilFailure(c) =>
      ExecuteKeepsValid(c, s, leaf);
    case Sequencer(cs, k) =>
      if k < |cs| && Valid(n) {
        ExecuteKeepsValid(cs[k], s, leaf);
        var c := Execute(cs[k], s, leaf).node;
        assert AllValid(cs);
        assert Valid(cs[k]);
        var cs' := cs[k := c];
        assert forall j :: 0 <= j < |cs'| ==> Valid(cs'[j]);
      }
    case Selector(cs, k) =>
      SelectorLoopKeepsValid(n, k, s, leaf);
      var l := SelectorLoop(n, k, s, leaf);
      assert Execute(n, s, leaf).node == Selector(l.children, l.cursor);
    case _ =>
  }

  /** The selector's loop keeps every child valid. */
  lemma {:induction false} SelectorLoopKeepsValid<S>(n: Node, i: nat, s: S, leaf: (nat, S) -> (Result, S))
    requires n.Selector?
    ensures AllValid(n.children) ==> AllValid(SelectorLoop(n, i, s, leaf).children)
    decreases n, 0, |n.children| - i
  {
    var cs := n.children;
    if i < |cs| {
      var o := Execute(cs[i], s, leaf);
      ExecuteKeepsValid(cs[i], s, leaf);
      if o.result == Failure && AllValid(cs) {
        assert Valid(cs[i]);
        SelectorLoopKeepsValid(n, i + 1, o.state, leaf);
        var rest := SelectorLoop(n, i + 1, o.state, leaf);
        var cs' := rest.children[i := o.node];
        assert SelectorLoop(n, i, s, leaf).children == cs';
        assert forall j :: 0 <= j < |cs'| ==> Valid(cs'[j]);
      }
    }
  }
}

=== FILE: option.dfy ===
/** A value that may be absent; used where the source returns null or an
    unspecified value. */
module Option {

  datatype Option<+T> = None | Some(value: T)
}

=== FILE: sprite_animation.dfy ===
/** The integer helpers of the 2D sprite animator: a modulo that is never
    negative for a positive modulus, the pose shown at a frame, and the
    mirror flags.

    The animator's float clock is abstracted to a whole frame number: the
    animation time multiplied by the animation speed and truncated toward
    zero, as the casts to int in the pose and mirror lookups do. */
module SpriteAnimation {
  import opened Option

  function Abs(x: int): nat
  {
    if x < 0 then -x else x
  }

  /** C#'s `/` on ints: division truncated toward zero. */
  function Quot(x: int, m: int): (q: int)
    requires m != 0
    ensures Abs(m) * Abs(q) <= Abs(x) < Abs(m) * (Abs(q) + 1)
    ensures q != 0 ==> (q < 0 <==> (x < 0) != (m < 0))
  {
    var a := Abs(x);
    var b := Abs(m);
    var d := a / b;
    QuotBounds(a, b, d);
    if (x < 0) != (m < 0) then -d else d
  }

  /** The whole quotient `d` of `a` by `b` is the number of whole copies of
      `b` that fit in `a`. */
  lemma QuotBounds(a: nat, b: nat, d: int)
    requires b > 0 && d == a / b
    ensures d >= 0 && b * d <= a < b * (d + 1)
  {
  }

  /** C#'s `%` on ints: the remainder left by Quot, which takes the sign of
      the dividend. */
  function Rem(x: int, m: int): (r: int)
    requires m != 0
    ensures x == m * Quot(x, m) + r
    ensures Abs(r) < Abs(m)
    ensures r != 0 ==> (r < 0 <==> x < 0)
  {
    var b := Abs(m);
    var d := Abs(x) / b;
    var a := Abs(x) % b;
    DivRem(Abs(x), b, d, a);
    SignedProduct(x, m, d, Quot(x, m));
    if x < 0 then -a else a
  }

  /** Whole quotient and remainder of `a` by `b` make up `a`, the remainder
      below `b`. */
  lemma DivRem(a: nat, b: nat, d: int, r: int)
    requires b > 0 && d == a / b && r == a % b
    ensures a == b * d + r && 0 <= r < b
  {
  }

  /** `m` times the quotient truncated toward zero is `abs(m) * d` carrying
      the dividend's sign. */
  lemma SignedProduct(x: int, m: int, d: int, q: int)
    requires m != 0 && q == (if (x < 0) != (m < 0) then -d else d)
    ensures m * q == (if x < 0 then -(Abs(m) * d) else Abs(m) * d)
  {
    var b: int := Abs(m);
    if m < 0 {
      assert m * q == b * (-q);
    }
  }

  /** At least one copy of `b` is at least `b`. */
  lemma {:induction false} MulAtLeast(a: nat, b: nat)
    requires a >= 1
    ensures a * b >= b
    decreases a
  {
    if a > 1 {
      MulAtLeast(a - 1, b);
      assert a * b == (a - 1) * b + b;
    }
  }

  /** A non-zero multiple of `m` is at least `m` away from zero. */
  lemma MultipleBound(d: int, m: int)
    requires m != 0
    ensures d == 0 || Abs(d * m) >= Abs(m)
  {
    if d != 0 {
      assert Abs(d * m) == Abs(d) * Abs(m) by {
        if d < 0 && m < 0 {
          assert d * m == (-d) * (-m);
        } else if d < 0 {
          assert d * m == -((-d) * m);
        } else if m < 0 {
          assert d * m == -(d * (-m));
        }
      }
      MulAtLeast(Abs(d), Abs(m));
    }
  }

  /** Euclidean division (Dafny's `/` and `%`) is determined by its quotient
      and remainder. */
  lemma EuclideanUnique(x: int, m: int, k: int, r: int)
    requires m != 0 && 0 <= r < Abs(m) && x == k * m + r
    ensures x % m == r && x / m == k
  {
    var d := x / m - k;
    assert d * m == r - x % m;
    MultipleBound(d, m);
  }

  /** Adding the modulus does not change the Euclidean remainder. */
  lemma ModShift(x: int, m: int)
    requires m > 0
    ensures (x + m) % m == x % m
  {
    var q := x / m;
    assert x == q * m + x % m;
    assert x + m == (q + 1) * m + x % m;
    EuclideanUnique(x + m, m, q + 1, x % m);
  }

  /** For a frame that is not negative, one more animation length is one
      more loop. */
  lemma QuotShift(x: int, m: int)
    requires m > 0 && x >= 0
    ensures Quot(x + m, m) == Quot(x, m) + 1
  {
    var q := x / m;
    assert x == q * m + x % m;
    assert x + m == (q + 1) * m + x % m;
    EuclideanUnique(x + m, m, q + 1, x % m);
  }

  /** The modulo that is never negative for a positive modulus: the C#
      remainder, moved up by `m` when it is negative. For m > 0 it lies in
      [0, m) and is the Euclidean remainder of `x` by `m`; for x >= 0 it is
      C#'s `%`; for any m it differs from `x` by a multiple of `m`. */
  function Mod(x: int, m: int): (r: int)
    requires m != 0
    ensures m > 0 ==> 0 <= r < m
    ensures m > 0 ==> r == x % m
    ensures x >= 0 ==> r == Rem(x, m)
    ensures (x - r) % m == 0
  {
    var r := Rem(x, m);
    var result := if r < 0 then r + m else r;
    var k := if r < 0 then Quot(x, m) - 1 else Quot(x, m);
    assert x == k * m + result;
    assert m > 0 ==> x % m == result by {
      if m > 0 {
        EuclideanUnique(x, m, k, result);
      }
    }
    EuclideanDifference(x, m, k, result);
    result
  }

  /** `x` and `r` differ by the multiple `k` of `m`. */
  lemma EuclideanDifference(x: int, m: int, k: int, r: int)
    requires m != 0 && x == k * m + r
    ensures (x - r) % m == 0
  {
    EuclideanUnique(x - r, m, k, 0);
  }

  /** The animation data: poses, static mirror flags, and whether every other
      loop of the animation is played mirrored. */
  datatype SpriteAnim<T> = SpriteAnim(poses: seq<T>, mirrorX: bool, mirrorY: bool,
                                      animateMirrorX: bool, animateMirrorY: bool)

  /** An animator, with or without an animation assigned. */
  datatype Animator<T> = Animator(anim: Option<SpriteAnim<T>>)

  function Poses<T>(a: Animator<T>): seq<T>
  {
    if a.anim.Some? then a.anim.value.poses else []
  }

  function MirrorX<T>(a: Animator<T>): bool
  {
    a.anim.Some? && a.anim.value.mirrorX
  }

  function MirrorY<T>(a: Animator<T>): bool
  {
    a.anim.Some? && a.anim.value.mirrorY
  }

  function AnimateMirrorX<T>(a: Animator<T>): bool
  {
    a.anim.Some? && a.anim.value.animateMirrorX
  }

  function AnimateMirrorY<T>(a: Animator<T>): bool
  {
    a.anim.Some? && a.anim.value.animateMirrorY
  }

  /** An animator with no animation shows no poses and mirrors nothing. */
  lemma NoAnimation<T>(a: Animator<T>)
    requires a.anim.None?
    ensures Poses(a) == []
    ensures !MirrorX(a) && !MirrorY(a) && !AnimateMirrorX(a) && !AnimateMirrorY(a)
  {
  }

  /** The pose shown at a frame: none without poses, otherwise the pose at the
      frame's Euclidean remainder by the number of poses, which is always a
      valid index, also for negative frames. */
  function GetPose<T>(a: Animator<T>, frame: int): (r: Option<T>)
    ensures r.None? <==> |Poses(a)| == 0
    ensures r.Some? ==> r.value == Poses(a)[frame % |Poses(a)|]
  {
    var poses := Poses(a);
    if |poses| == 0 then None
    else Some(poses[Mod(frame, |poses|)])
  }

  /** Poses repeat with the animation's length, and within the first loop the
      frame number is the pose index. */
  lemma PoseCycles<T>(a: Animator<T>, frame: int)
    requires |Poses(a)| > 0
    ensures GetPose(a, frame + |Poses(a)|) == GetPose(a, frame)
    ensures 0 <= frame < |Poses(a)| ==> GetPose(a, frame) == Some(Poses(a)[frame])
  {
    var n := |Poses(a)|;
    ModShift(frame, n);
    if 0 <= frame < n {
      EuclideanUnique(frame, n, 0, frame);
    }
  }

  /** A mirror flag at a frame. When the animation does not animate mirroring
      it is the static flag. Otherwise the frame is divided by the number of
      poses to count loops and the flag is set on odd loops; without poses
      that division is a float division by zero whose conversion to int C#
      leaves unspecified, so the flag is then unknown (None). */
  function Mirror(animate: bool, flag: bool, poseCount: nat, frame: int): (r: Option<bool>)
    ensures !animate ==> r == Some(flag)
    ensures animate && poseCount == 0 ==> r.None?
    ensures animate && poseCount > 0 ==> r == Some(Quot(frame, poseCount) % 2 == 1)
  {
    if animate then
      if poseCount == 0 then None
      else Some(Mod(Quot(frame, poseCount), 2) == 1)
    else
      Some(flag)
  }

  /** Whether the sprite is mirrored over X at a frame. */
  function GetMirrorX<T>(a: Animator<T>, frame: int): (r: Option<bool>)
    ensures !AnimateMirrorX(a) ==> r == Some(MirrorX(a))
    ensures AnimateMirrorX(a) && |Poses(a)| > 0 ==> r == Some(Quot(frame, |Poses(a)|) % 2 == 1)
    ensures AnimateMirrorX(a) && |Poses(a)| == 0 ==> r.None?
  {
    Mirror(AnimateMirrorX(a), MirrorX(a), |Poses(a)|, frame)
  }

  /** Whether the sprite is mirrored over Y at a frame. */
  function GetMirrorY<T>(a: Animator<T>, frame: int): (r: Option<bool>)
    ensures !AnimateMirrorY(a) ==> r == Some(MirrorY(a))
    ensures AnimateMirrorY(a) && |Poses(a)| > 0 ==> r == Some(Quot(frame, |Poses(a)|) % 2 == 1)
    ensures AnimateMirrorY(a) && |Poses(a)| == 0 ==> r.None?
  {
    Mirror(AnimateMirrorY(a), MirrorY(a), |Poses(a)|, frame)
  }

  /** With animated mirroring, the first loop (frames 0 to count - 1) is not
      mirrored, the second is, and the flag flips from each loop to the next. */
  lemma MirrorAlternates(flag: bool, count: nat, frame: int)
    requires count > 0 && frame >= 0
    ensures 0 <= frame < count ==> Mirror(true, flag, count, frame) == Some(false)
    ensures count <= frame < 2 * count ==> Mirror(true, flag, count, frame) == Some(true)
    ensures Mirror(true, flag, count, frame + count).value == !Mirror(true, flag, count, frame).value
  {
    QuotShift(frame, count);
    if frame < count {
      EuclideanUnique(frame, count, 0, frame);
    } else if frame < 2 * count {
      EuclideanUnique(frame, count, 1, frame - count);
    }
  }

  /** For negative frames (reverse playback) the loop count truncates toward
      zero, so the loop around frame 0 is almost twice as long: with 4 poses,
      frames -3 to 3 are all unmirrored, and mirroring first sets in at -4
      and at 4. */
  lemma MirrorAroundZero(flag: bool)
    ensures Mirror(true, flag, 4, -3) == Some(false) && Mirror(true, flag, 4, -1) == Some(false)
    ensures Mirror(true, flag, 4, 0) == Some(false) && Mirror(true, flag, 4, 3) == Some(false)
    ensures Mirror(true, flag, 4, -4) == Some(true) && Mirror(true, flag, 4, 4) == Some(true)
  {
    assert Quot(-3, 4) == 0 && Quot(-1, 4) == 0 && Quot(3, 4) == 0;
    assert Quot(-4, 4) == -1 && Quot(4, 4) == 1;
  }
}

=== FILE: weapon.dfy ===
/** The abstract weapon of Lab6: trigger edge detection, magazine and ammo box
    bookkeeping, and the timed reload state machine.

    Ammo counts are whole numbers. The ammo box is the shared dictionary
    entry for the weapon's ammo type, modelled as a single count: `None` when
    no ammo box is linked, and otherwise the entry, which is assumed present
    in the dictionary. Times are seconds. */
module Weapon {
  import opened Option

  datatype Weapon = Weapon(
    trigger: bool,              // trigger held
    justTrigger: bool,          // trigger went from released to held this frame
    box: Option<int>,           // ammo left in the linked box for this ammo type
    ammoUse: int,               // ammo used per shot
    magSize: int,               // 0 or less: no magazine, shots draw from the box
    ammoInMag: int,
    reloadStartTime: real,      // delay before the first reload step
    reloadTickTime: real,       // delay between later reload steps
    reloadPerTick: int,         // above 0: reload in steps; otherwise in one go
    canInterruptReload: bool,
    reloadTimeout: real,        // time accumulated in the current reload phase
    reloading: bool,
    reloadTicking: bool)        // the start delay has passed

  /** A weapon as configured by default, linked to `box`. */
  function Configured(box: Option<int>): (w: Weapon)
    ensures !w.reloading && !w.reloadTicking && !w.trigger && w.magSize <= 0
  {
    Weapon(false, false, box, 1, -1, -1, 0.5, 0.15, -1, false, 0.0, false, false)
  }

  /** The reload state machine's invariant: the weapon only ticks while it
      reloads. */
  predicate ReloadFlagsOk(w: Weapon)
  {
    w.reloadTicking ==> w.reloading
  }

  /** Ammo in the box; 0 when no box is linked. */
  function AmmoInBox(w: Weapon): (n: int)
    ensures w.box.None? ==> n == 0
    ensures w.box.Some? ==> n == w.box.value
  {
    if w.box.Some? then w.box.value else 0
  }

  /** The ammo a weapon holds in its magazine and box together. */
  function TotalAmmo(w: Weapon): int
  {
    w.ammoInMag + AmmoInBox(w)
  }

  /** Counts are sensible: a magazine holds between 0 and magSize, and a
      linked box is not negative. */
  predicate AmmoOk(w: Weapon)
  {
    && (w.magSize > 0 ==> 0 <= w.ammoInMag <= w.magSize)
    && (w.box.Some? ==> w.box.value >= 0)
  }

  /** Whether the magazine can feed one shot; always true without a magazine. */
  function HasAmmoInMag(w: Weapon): (b: bool)
    ensures w.magSize <= 0 ==> b
    ensures w.magSize > 0 ==> (b <==> w.ammoInMag >= w.ammoUse)
  {
    w.magSize <= 0 || w.ammoInMag >= w.ammoUse
  }

  /** Whether one shot can be fed: from the magazine when there is one,
      otherwise from the box. */
  function HasAmmoToFire(w: Weapon): (b: bool)
    ensures w.magSize > 0 ==> (b <==> w.ammoInMag >= w.ammoUse)
    ensures w.magSize <= 0 ==> (b <==> AmmoInBox(w) >= w.ammoUse)
  {
    if w.magSize > 0 then HasAmmoInMag(w) else AmmoInBox(w) >= w.ammoUse
  }

  /** Spend one shot's ammo: from the magazine when there is one and it holds
      enough (otherwise nothing happens), else from the linked box without any
      check. */
  function UseAmmo(w: Weapon): (r: Weapon)
    ensures r == w.(ammoInMag := r.ammoInMag, box := r.box)
    ensures w.magSize > 0 ==> r.box == w.box
    ensures w.magSize > 0 && w.ammoInMag >= w.ammoUse ==> r.ammoInMag == w.ammoInMag - w.ammoUse
    ensures w.magSize > 0 && w.ammoInMag < w.ammoUse ==> r == w
    ensures w.magSize <= 0 ==> r.ammoInMag == w.ammoInMag && AmmoInBox(r) == AmmoInBox(w) - (if w.box.Some? then w.ammoUse else 0)
  {
    if w.magSize > 0 then
      if w.ammoInMag >= w.ammoUse then w.(ammoInMag := w.ammoInMag - w.ammoUse) else w
    else
      if w.box.Some? then w.(box := Some(w.box.value - w.ammoUse)) else w
  }

  /** Begin reloading when not already reloading, the magazine is below its
      size and the box holds ammo; then the reload starts from its start
      delay. Otherwise nothing changes. */
  function StartReload(w: Weapon): (r: Weapon)
    ensures var starts := !w.reloading && w.ammoInMag < w.magSize && AmmoInBox(w) > 0;
            && (starts ==> r == w.(reloading := true, reloadTicking := false, reloadTimeout := 0.0))
            && (!starts ==> r == w)
    ensures ReloadFlagsOk(w) ==> ReloadFlagsOk(r)
  {
    if !w.reloading && w.ammoInMag < w.magSize && AmmoInBox(w) > 0 then
      w.(reloading := true, reloadTicking := false, reloadTimeout := 0.0)
    else
      w
  }

  /** Move ammo from the box into the magazine: `amount` when it is above 0,
      otherwise what the magazine lacks; the box gives what it has when that
      is less. Nothing happens without a magazine, with a full magazine, or
      without a box. Ammo is only moved, never created or lost. */
  function ReloadMag(w: Weapon, amount: int): (r: Weapon)
    ensures r == w.(ammoInMag := r.ammoInMag, box := r.box)
    ensures TotalAmmo(r) == TotalAmmo(w)
    ensures w.magSize <= 0 || w.ammoInMag >= w.magSize || w.box.None? ==> r == w
    ensures AmmoInBox(w) >= 0 ==> AmmoInBox(r) >= 0 && r.ammoInMag >= w.ammoInMag
    ensures amount <= 0 && w.ammoInMag < w.magSize && AmmoInBox(w) >= 0 ==> r.ammoInMag <= w.magSize
    ensures amount <= 0 && w.magSize > 0 && w.ammoInMag < w.magSize && w.box.Some?
            ==> r.ammoInMag == w.magSize || AmmoInBox(r) == 0
    ensures amount > 0 && w.magSize > 0 && w.ammoInMag < w.magSize && w.box.Some?
            ==> r.ammoInMag == w.ammoInMag + (if w.box.value >= amount then amount else w.box.value)
  {
    if w.magSize > 0 && w.ammoInMag < w.magSize && w.box.Some? then
      var remaining := w.box.value;
      var needed := w.magSize - w.ammoInMag;
      var toReload := if amount > 0 then amount else needed;
      if remaining >= toReload then
        w.(ammoInMag := w.ammoInMag + toReload, box := Some(remaining - toReload))
      else
        w.(ammoInMag := w.ammoInMag + remaining, box := Some(0))
    else
      w
  }

  /** Try to stop a reload. When not reloading this succeeds and changes
      nothing; when reloading it succeeds, clearing both reload flags, exactly
      when the reload may be interrupted or has passed its start delay, and
      otherwise fails and changes nothing. */
  function TryInterruptReload(w: Weapon): (r: (bool, Weapon))
    ensures !w.reloading ==> r == (true, w)
    ensures w.reloading ==> (r.0 <==> w.canInterruptReload || w.reloadTicking)
    ensures w.reloading && r.0 ==> r.1 == w.(reloading := false, reloadTicking := false)
    ensures !r.0 ==> r.1 == w
    ensures ReloadFlagsOk(w) ==> ReloadFlagsOk(r.1)
  {
    if w.reloading then
      if w.canInterruptReload || w.reloadTicking then (true, w.(reloading := false, reloadTicking := false))
      else (false, w)
    else (true, w)
  }

  /** Set the trigger. Pressing it during a reload first tries to interrupt
      the reload and, if that fails, is ignored altogether. Otherwise the
      trigger takes the new value, and justTrigger records whether this set
      pressed a released trigger. */
  function SetTrigger(w: Weapon, value: bool): (r: Weapon)
    ensures var blocked := value && w.reloading && !w.canInterruptReload && !w.reloadTicking;
            && (blocked ==> r == w)
            && (!blocked ==> r.trigger == value && (r.justTrigger <==> !w.trigger && value))
    ensures value && w.reloading && (w.canInterruptReload || w.reloadTicking)
            ==> r == w.(reloading := false, reloadTicking := false, trigger := true, justTrigger := !w.trigger)
    ensures !(value && w.reloading) ==> r == w.(trigger := value, justTrigger := !w.trigger && value)
    ensures ReloadFlagsOk(w) ==> ReloadFlagsOk(r)
  {
    if w.reloading && value then
      var (ok, w1) := TryInterruptReload(w);
      if !ok then w1 else w1.(justTrigger := !w1.trigger && value, trigger := value)
    else
      w.(justTrigger := !w.trigger && value, trigger := value)
  }

  /** The reload's start phase with `t` seconds accumulated: once more than
      reloadStartTime has accumulated the delay is consumed, the magazine is
      reloaded in full, and the reload either ends (reloadPerTick 0 or less)
      or goes on ticking. */
  function ReloadStartPhase(w: Weapon, t: real): (r: Weapon)
    requires w.reloading && !w.reloadTicking
    ensures r.trigger == w.trigger && r.justTrigger == w.justTrigger
    ensures r.magSize == w.magSize && r.ammoUse == w.ammoUse
    ensures TotalAmmo(r) == TotalAmmo(w)
    ensures ReloadFlagsOk(r)
    ensures AmmoOk(w) ==> AmmoOk(r)
    ensures t <= w.reloadStartTime ==> r == w.(reloadTimeout := t)
    ensures t > w.reloadStartTime ==> r.reloadTimeout == t - w.reloadStartTime
    ensures t > w.reloadStartTime ==> (r.reloading <==> w.reloadPerTick > 0) && (r.reloadTicking <==> w.reloadPerTick > 0)
  {
    if t > w.reloadStartTime then
      var w1 := w.(reloadTimeout := t - w.reloadStartTime);
      var w2 := if w1.reloadPerTick > 0 then w1.(reloadTicking := true)
                else w1.(reloading := false, reloadTicking := false);
      ReloadMag(w2, -1)
    else
      w.(reloadTimeout := t)
  }

  /** The reload's ticking phase with `t` seconds accumulated: each time more
      than reloadTickTime has accumulated the magazine is reloaded in full
      again, and the reload ends once the box is empty or the magazine full. */
  function ReloadTickPhase(w: Weapon, t: real): (r: Weapon)
    requires w.reloading && w.reloadTicking
    ensures r.trigger == w.trigger && r.justTrigger == w.justTrigger
    ensures r.magSize == w.magSize && r.ammoUse == w.ammoUse
    ensures TotalAmmo(r) == TotalAmmo(w)
    ensures ReloadFlagsOk(r)
    ensures AmmoOk(w) ==> AmmoOk(r)
    ensures t <= w.reloadTickTime ==> r == w.(reloadTimeout := t)
    ensures t > w.reloadTickTime ==> r.reloadTimeout == t - w.reloadTickTime
    ensures t > w.reloadTickTime ==> (!r.reloading <==> AmmoInBox(r) <= 0 || r.ammoInMag >= r.magSize)
    ensures t > w.reloadTickTime && w.magSize > 0 && w.box.Some? && AmmoInBox(w) >= 0 && w.ammoInMag <= w.magSize
            ==> r.ammoInMag == w.magSize || AmmoInBox(r) == 0
  {
    if t > w.reloadTickTime then
      var w1 := ReloadMag(w.(reloadTimeout := t - w.reloadTickTime), -1);
      if AmmoInBox(w1) <= 0 || w1.ammoInMag >= w1.magSize then w1.(reloading := false, reloadTicking := false)
      else w1
    else
      w.(reloadTimeout := t)
  }

  /** The weapon's per-frame update, `dt` seconds after the previous one:
      justTrigger is cleared, and a reload in progress advances its current
      phase by `dt`. */
  function Update(w: Weapon, dt: real): (r: Weapon)
    requires dt >= 0.0
    ensures !r.justTrigger
    ensures r.trigger == w.trigger && r.magSize == w.magSize && r.ammoUse == w.ammoUse
    ensures TotalAmmo(r) == TotalAmmo(w)
    ensures !w.reloading ==> r == w.(justTrigger := false)
    ensures r.reloading ==> w.reloading
    ensures ReloadFlagsOk(w) ==> ReloadFlagsOk(r)
    ensures AmmoOk(w) ==> AmmoOk(r)
    ensures w.reloadTimeout >= 0.0 ==> r.reloadTimeout >= 0.0
    ensures w.reloading && !w.reloadTicking ==> r == ReloadStartPhase(w.(justTrigger := false), w.reloadTimeout + dt)
    ensures w.reloading && w.reloadTicking ==> r == ReloadTickPhase(w.(justTrigger := false), w.reloadTimeout + dt)
  {
    var w0 := w.(justTrigger := false);
    if !w0.reloading then w0
    else if !w0.reloadTicking then ReloadStartPhase(w0, w0.reloadTimeout + dt)
    else ReloadTickPhase(w0, w0.reloadTimeout + dt)
  }

  /** The default weapon is consistent: not reloading, counts in range for a
      box that is not negative, able to fire exactly when the box holds one
      shot, and left idle by a frame. */
  lemma ConfiguredIsSound(box: Option<int>, dt: real)
    requires dt >= 0.0
    ensures ReloadFlagsOk(Configured(box))
    ensures (box.Some? ==> box.value >= 0) ==> AmmoOk(Configured(box))
    ensures HasAmmoToFire(Configured(box)) <==> AmmoInBox(Configured(box)) >= 1
    ensures Update(Configured(box), dt) == Configured(box)
    ensures StartReload(Configured(box)) == Configured(box)
  {
  }

  /** A frame of a reload still in its start delay: once the accumulated time
      passes the delay, the magazine ends full or the box empty, and the
      reload ends unless reloadPerTick asks for ticking; before that only
      time accumulates. */
  lemma UpdateStartsReloadStep(w: Weapon, dt: real)
    requires dt >= 0.0 && w.reloading && !w.reloadTicking && AmmoOk(w)
    requires w.magSize > 0 && w.box.Some?
    ensures var r := Update(w, dt);
            && (w.reloadTimeout + dt > w.reloadStartTime ==>
                  && (r.ammoInMag == w.magSize || AmmoInBox(r) == 0)
                  && (r.reloading <==> w.reloadPerTick > 0))
            && (w.reloadTimeout + dt <= w.reloadStartTime ==>
                  r == w.(justTrigger := false, reloadTimeout := w.reloadTimeout + dt))
  {
    var w0 := w.(justTrigger := false);
    assert Update(w, dt) == ReloadStartPhase(w0, w.reloadTimeout + dt);
    if w.reloadTimeout + dt > w.reloadStartTime && w.ammoInMag < w.magSize {
      StartStepFillsMagazine(w0, w.reloadTimeout + dt, 0.0);
    }
  }

  /** A frame of a ticking reload: once the accumulated time passes the tick
      delay, the magazine ends full or the box empty and the reload ends. */
  lemma UpdateTickEndsReload(w: Weapon, dt: real)
    requires dt >= 0.0 && w.reloading && w.reloadTicking && AmmoOk(w)
    requires w.magSize > 0 && w.box.Some?
    requires w.reloadTimeout + dt > w.reloadTickTime
    ensures var r := Update(w, dt);
            && (r.ammoInMag == w.magSize || AmmoInBox(r) == 0)
            && !r.reloading && !r.reloadTicking
  {
    var w0 := w.(justTrigger := false);
    assert Update(w, dt) == ReloadTickPhase(w0, w.reloadTimeout + dt);
  }

  /** Firing when the weapon reports ammo to fire takes exactly one shot's
      ammo from the weapon and keeps the counts sensible. */
  lemma UseAmmoWhenReady(w: Weapon)
    requires AmmoOk(w) && w.ammoUse >= 0 && HasAmmoToFire(w)
    requires w.magSize <= 0 ==> w.box.Some?
    ensures AmmoOk(UseAmmo(w))
    ensures TotalAmmo(UseAmmo(w)) == TotalAmmo(w) - w.ammoUse
  {
  }

  /** Every operation keeps the reload flags consistent: the weapon ticks only
      while it reloads. */
  lemma ReloadFlagsInvariant(w: Weapon, value: bool, amount: int, dt: real)
    requires ReloadFlagsOk(w) && dt >= 0.0
    ensures ReloadFlagsOk(SetTrigger(w, value))
    ensures ReloadFlagsOk(UseAmmo(w))
    ensures ReloadFlagsOk(StartReload(w))
    ensures ReloadFlagsOk(ReloadMag(w, amount))
    ensures ReloadFlagsOk(TryInterruptReload(w).1)
    ensures ReloadFlagsOk(Update(w, dt))
  {
  }

  /** The first reload step after the start delay always reloads the
      magazine in full (as far as the box allows), whatever reloadPerTick says:
      the per-tick amount is never passed on. So when the reload goes on
      ticking, its first tick step finds the magazine full or the box empty
      and ends the reload. */
  lemma StartStepFillsMagazine(w: Weapon, t: real, t2: real)
    requires w.reloading && !w.reloadTicking && AmmoOk(w)
    requires w.magSize > 0 && w.box.Some? && w.ammoInMag < w.magSize
    requires t > w.reloadStartTime
    ensures var r := ReloadStartPhase(w, t);
            && (r.ammoInMag == w.magSize || AmmoInBox(r) == 0)
            && (r.reloadTicking && t2 > r.reloadTickTime ==> !ReloadTickPhase(r, t2).reloading)
  {
    var r := ReloadStartPhase(w, t);
    if r.reloadTicking && t2 > r.reloadTickTime {
      var r2 := ReloadTickPhase(r, t2);
      assert r2.ammoInMag >= r.ammoInMag;
    }
  }
}
